=== FILE: README.md ===
# Roster reconciliation and ranking, modelled in Dafny

The system scrapes weightlifting meet registration rosters. Two pieces of it carry real
logic, and both are modelled here.

**The reconciliation pass `updateSupabase`** merges one meet's scraped entries into the
athlete store, keyed by (member_id, meet). Each entry is matched by name within the meet,
after lower-casing and trimming:
- A matched entry is compared on six fields. If any differs, the entry is written back
  under the stored member_id, and non-null session values are kept.
- An unmatched entry is inserted. If its member_id is in the working set, a fresh random
  nine-digit id replaces it. The working set holds the global query's ids plus the ids
  drawn earlier in the run. It does not hold ids accepted earlier in the same batch, and
  it is empty when the global query failed.

**The ranking comparator** used to sort rosters orders entries by gender, then by the
weight-class numeral and "+" flag read by `getWeight`, then by entry total. It appears in
four variants. Three sort totals descending and compare gender fields. The adaptive-event
variant reads gender from a "Female" prefix of the category and sorts totals ascending.

Modules, one per concern:
- `Wrappers`: `Option`.
- `Decimal`: digit strings, `parseInt` of a digit run, the decimal spelling of an id, and
  the counting argument that an unused id exists.
- `Text`: `toLowerCase` and `trim`, and the name key built from them.
- `Weight`: `getWeight` and the regular expression it runs.
- `Ranking`: the lexicographic key, the comparator and its order laws.
- `Sorting`: a stable insertion sort, generic over the key.
- `Athletes`: the entry record.
- `Variants`: the four comparator variants, the committed adaptive-event data file, and
  worked examples.
- `Reconcile`: the store, the run state, one step per entry, the batch, and the whole pass.
- `ReconcileProps`: the four ways the code departs from the intent of its comments, plus
  the single-step guarantees.
- `ReconcileInvariants`: the invariant tying the name index to the store; the theorem
  that member_ids stay unique across meets when the global query lists every stored key
  (`UpdateSupabaseKeepsIdsUnique`, built on `StepKeepsIdsUnique`); and the distinctness
  of two successive draws (`GeneratedIdsDistinct`).

In several places the pass's own comments and log lines say more than its code does. The
model follows the code, and the lemmas state the differences:
- The comment at csv_scraper.js:319 and the "no changes … skipping" log at :356 imply
  that an unchanged athlete is skipped. But the meet query at :258 selects only four
  columns, so the six-field comparison at :320-327 always reports a change. The skip
  branch is never taken, and a re-run rewrites every entry
  (`ReconcileProps.SkipBranchUnreachable`, `ReconcileProps.SecondRunRewrites`).
- The pass keeps four counters (csv_scraper.js:305-308). A failed update or insert is
  only logged (:349-350, :377-378) and counted nowhere except in processed. The model
  keeps the same four counters.
- The comment at csv_scraper.js:275 says the global id query guards against duplicates
  across meets. When that query fails, :280-282 only logs the error and the pass goes on
  with an empty id set, so an id used at another meet is stored again
  (`ReconcileProps.IdFetchFailureIgnored`). When it answers with every stored key, ids
  stay unique (`ReconcileInvariants.UpdateSupabaseKeepsIdsUnique`), given that the store
  refuses a second row under one (member_id, meet). Without that key, two new athletes
  of one batch with the same unused scraped id would both be stored under it, because
  an accepted id is not added to the working set (:362-370).

Inputs instead of effects:
- **Remote reads.** The two remote reads are inputs. The meet query's rows are
  `Option<seq<MeetRow>>` and the global query's keys are `Option<seq<RowKey>>`, each
  `None` when the query failed.
- **Write outcomes.** Whether each write is accepted is an input `oks: seq<bool>`.
- **The store.** The model's store is a map keyed by (member_id, meet). This is a
  modelling choice: the table's schema is not part of this model. As a consequence, an
  insert onto an existing key fails even when its write is accepted. Both
  `ReconcileProps.SameBatchIdNotCaught`'s failed second insert and
  `ReconcileInvariants.UpdateSupabaseKeepsIdsUnique` rest on that choice.
- **Randomness.** `Math.random` becomes a choice, written `:|`, from the unused part of
  [100000000, 999999999].
- **Sorting.** `Array.prototype.sort` is stable but otherwise unspecified. It is modelled
  by a stable insertion sort, and `Sorting.SortedStableUnique` shows that every stable sort
  under the same comparator gives the same list.

## Model

| member | source | states |
|---|---|---|
| Weight.GetWeight | csv_scraper.js:204-211 | no numeral exactly when the class has no digit, and then no plus flag |
| Weight.GetWeightFollowsRegex | csv_scraper.js:205-210 | no numeral exactly when `(\+)?(\d+)` matches nowhere; otherwise the numeral is the value of the digit run of the leftmost, greedy match, and plus is whether that match took a '+' |
| Weight.Readings | scrape_from_site.js:115-122 | "+87" reads (87, plus), "87" reads (87, no plus), "Open" reads (none, no plus) |
| Weight.DigitFreeSuffix | mnats25/scraper.js:59 | appending a digit-free suffix such as "kg" leaves the reading unchanged |
| Weight.DigitFreePrefix | arnold_25/scraper/ao1_adaptive_scraper.js:102-112 | a digit-free prefix that does not end in '+', such as "Female ", leaves the reading unchanged |
| Ranking.Compare | csv_scraper.js:197-220 | the comparator says "same" exactly on equal keys and "before" exactly when the declarative lexicographic order ranks the first key first |
| Ranking.CompareMeansRanking | csv_scraper.js:197-220 | the comparator says "before" exactly when the key ranks first lexicographically (Female first, numeral ascending with none last, non-plus first, then total in the variant's direction) and "same" only on equal keys |
| Ranking.CompareAntisymmetric | csv_scraper.js:199-219 | swapping the arguments flips the answer |
| Ranking.CompareTransitive | csv_scraper.js:197-220 | "not after" and "before" compose transitively |
| Ranking.LeTotalOrder | scrape_from_site.js:108-131 | "not after" is reflexive, total, antisymmetric on keys and transitive |
| Ranking.GenderTextAgrees | csv_scraper.js:199-201 | on the two real gender strings the string test agrees with the enum order |
| Ranking.GenderTextNotAntisymmetric | csv_scraper.js:199-201 | on an arbitrary string the equality-based gender test answers "after" both ways for "Male" and "X" |
| Sorting.Insert | csv_scraper.js:197 | inserting keeps a sorted list sorted and adds exactly the element |
| Sorting.SortBy | csv_scraper.js:197 | the result is sorted and a permutation of the input |
| Sorting.SortByStable | csv_scraper.js:197 | entries with equal keys keep their input order |
| Sorting.SortedStableUnique | csv_scraper.js:197 | a sorted, stable permutation is unique, so any stable sort agrees with this one |
| Sorting.SortFixesSorted | arnold_25/entry/ao1_adaptive_entries.ts:11-19 | an already sorted list is returned unchanged |
| Sorting.InsertionSort | csv_scraper.js:197-220 | the loop returns a sorted, stable permutation of its input |
| Variants.ScrapedOrder | csv_scraper.js:197-220 | an entry sorts first exactly when it is Female against Male, or has the smaller numeral, or is non-plus against plus, or has the larger total |
| Variants.SortRoster | scrape_from_site.js:108-131 | the roster comes back sorted by the scraped comparator, as a stable permutation |
| Variants.SiteExampleOrder | scrape_from_site.js:110-130 | Female 87 (100) before Female +87 (90) before Male 55 (120), and sorting that list changes nothing |
| Variants.UnnumberedClassLast | scrape_from_site.js:117 | a class without digits sorts after every numbered class of the same gender |
| Variants.StringRowsRankAsEntries | mnats25/scraper.js:59 | the string rows with "kg" appended rank exactly as the entries they come from |
| Variants.AdaptiveKey | arnold_25/scraper/ao1_adaptive_scraper.js:111-123 | the key is Female exactly when the category starts with "Female", has no numeral exactly when the category has no digit, and breaks ties on the entry total |
| Variants.AdaptiveGenderByPrefix | arnold_25/scraper/ao1_adaptive_scraper.js:115-116 | a "Female"-prefixed category sorts before one without the prefix; two without it tie on gender |
| Variants.AdaptiveCategoryReading | arnold_25/scraper/ao1_adaptive_scraper.js:102-112 | a category "Gender Nkg" reads like its bare class "N" |
| Variants.AdaptiveTotalsAscending | arnold_25/scraper/ao1_adaptive_scraper.js:123 | at equal gender and bracket the lower total sorts first, the reverse of the other variants |
| Variants.AdaptiveRowKey | arnold_25/scraper/ao1_adaptive_scraper.js:100-124 | a row built from a gender and class gets the key of that gender and class |
| Variants.AdaptiveEntriesSorted | arnold_25/entry/ao1_adaptive_entries.ts:11-19 | the committed adaptive-event list is sorted under its comparator and sorting it changes nothing |
| Text.Trim | csv_scraper.js:270 | trim returns the slice of its input between two all-white-space margins, and that slice starts and ends with a kept character |
| Text.Normalize | csv_scraper.js:270 | a name key is the lower-cased name cut between two all-white-space margins, and starts and ends with a kept character; so it has no upper-case ASCII letter and is no longer than the name |
| Text.NormalizeIgnoresPadding | csv_scraper.js:312 | white space around a name does not change its key |
| Text.NormalizeIgnoresCase | csv_scraper.js:312 | names that differ only in ASCII letter case get the same key |
| Text.NormalizeIdempotent | csv_scraper.js:270 | normalising a key again gives the same key |
| Text.TrimIsInfix | csv_scraper.js:270 | trimming keeps a contiguous piece of its input, cut between white-space margins |
| Decimal.DigitsValueOfToDecimal | csv_scraper.js:297 | the decimal spelling of an id parses back to the id |
| Decimal.ToDecimalInjective | csv_scraper.js:297-298 | different numbers spell differently, so the set test compares the numbers |
| Decimal.NineDigitSpelling | csv_scraper.js:297 | every id drawn from [100000000, 999999999] is spelled with nine digits |
| Decimal.FreeValueExists | csv_scraper.js:295-298 | a set smaller than the range misses some value of it, so the draw loop can end |
| Reconcile.IndexByName | csv_scraper.js:266-273 | the index holds every meet row's name key, each value is a row with that key, and the last row with a key wins |
| Reconcile.HasChanges | csv_scraper.js:320-327 | a change is reported exactly when the stored view, with the entry's name and sessions put in, differs from the entry's full view; against a row of the four-column query it is always reported |
| Reconcile.UpdatedRow | csv_scraper.js:329-340 | the written row lies under the stored (member_id, meet), equals the entry apart from member_id and sessions, never loses a stored non-null session, and has a null session only when both sides do |
| Reconcile.ApplyUpdate | csv_scraper.js:343-347 | the update fails exactly when the rewritten row would take another row's key; otherwise the row count stays, the written row sits under its key, every other row is unchanged, and a well-keyed store stays well-keyed; a filter that matches nothing changes nothing |
| Reconcile.ApplyInsert | csv_scraper.js:373-375 | an insert fails exactly when the key exists; otherwise the store gains exactly that row, every other row is unchanged, and a well-keyed store stays well-keyed |
| Reconcile.Inserted | csv_scraper.js:373-391 | the insert is counted exactly when the write is accepted and the key is free; then the row is stored and its name key indexed under its id, otherwise store and index are unchanged; processed always grows by one |
| Reconcile.IdsOf | csv_scraper.js:284-290 | the working set holds exactly the ids of the global query's rows, and no more ids than rows |
| Reconcile.WorkingIds | csv_scraper.js:280-290 | a failed global query gives an empty working set; an answered one gives exactly the listed ids, no more than there are rows |
| Reconcile.GenerateUniqueMemberId | csv_scraper.js:293-303 | the id is nine digits, was not in the working set, and is added to it |
| Reconcile.Resolve | csv_scraper.js:312-370 | an entry matches iff its name key is indexed; unmatched, it keeps its id iff the id is unused, and a replacement id is fresh and recorded |
| Reconcile.Step | csv_scraper.js:311-392 | one entry is processed; the working set grows by at most one; a failed write changes neither store nor success counters; a skip happens iff the name matched with no change, and then nothing is written |
| Reconcile.Run | csv_scraper.js:305-311 | processed counts every entry; success counters grow by at most one per entry |
| Reconcile.UpdateSupabase | csv_scraper.js:240-402 | an empty batch and a failed meet query end the run before any write; otherwise every entry is processed |
| ReconcileProps.IndexProjected | csv_scraper.js:256-259 | the index built from the four-column meet query knows no content column |
| ReconcileProps.ProjectedAlwaysChanged | csv_scraper.js:320-327 | against such a row the change test always reports a change |
| ReconcileProps.RunNeverSkips | csv_scraper.js:355-358 | no step of a run counts a skip |
| ReconcileProps.SkipBranchUnreachable | csv_scraper.js:256-259 | a completed run always reports zero skipped |
| ReconcileProps.SecondRunRewrites | csv_scraper.js:320-354 | re-running a batch whose names are all stored in the meet, with every write accepted, updates every entry and skips none |
| ReconcileProps.FullViewChanged | csv_scraper.js:320-327 | with every column known, no change is reported iff the stored row equals the entry apart from name, meet and sessions; a different member_id always counts as a change |
| ReconcileProps.RegeneratedIdAlwaysChanged | csv_scraper.js:363-368 | a row inserted under a regenerated id differs from its entry in member_id, so it reads as changed on every later run |
| ReconcileProps.UpdateTouchesOnlyMatchedRow | csv_scraper.js:331-347 | a matched entry writes only the stored (member_id, meet) row, under the stored member_id; every other row, the index and the id set stay unchanged |
| ReconcileProps.SessionsIndependent | csv_scraper.js:334-340 | each session column is merged from its own stored and scraped values alone; the rest of the row is the entry under the stored id |
| ReconcileProps.ChangedMatchUpdates | csv_scraper.js:329-354 | a matched entry that differs from its present stored row, with the write accepted, replaces that row by the updated row, keeps every key, and counts one update |
| ReconcileProps.MatchedNeverInserts | csv_scraper.js:315-358 | a matched entry never inserts and leaves the index alone |
| ReconcileProps.InsertThenUpdate | csv_scraper.js:382-388 | after a successful insert, a later entry with the same name key finds the inserted row under its inserted id |
| ReconcileProps.StepAddsOnlyGenerated | csv_scraper.js:362-370 | a step adds only a generated nine-digit id to the working set, and adds nothing when the scraped id is not in the set |
| ReconcileProps.RunAddsOnlyGenerated | csv_scraper.js:301 | over a run, only nine-digit ids enter the working set |
| ReconcileProps.AcceptedIdsNeverRecorded | csv_scraper.js:362-389 | a batch whose scraped ids are all outside the working set leaves the set exactly as it was, so an id accepted as it is never guards a later entry |
| ReconcileProps.SameBatchIdNotCaught | csv_scraper.js:362-377 | two new athletes with the same unused id: the first goes in without recording its id, and the second's insert fails on the key |
| ReconcileProps.IdFetchFailureIgnored | csv_scraper.js:276-290 | with the global query answered, an athlete whose id is used at another meet is inserted under a fresh nine-digit id and ids stay unique; when it failed, the athlete is inserted under the used id and two rows share it |
| ReconcileProps.JaneDoeUpdated | csv_scraper.js:312-347 | "jane doe" scraped as 9999 updates stored row 1001, takes the new total, keeps session 3, and creates no row 9999 |
| ReconcileInvariants.InitialTracks | csv_scraper.js:256-273 | an index built from a faithful meet query, over a meet whose names are distinct, ties each name to its row |
| ReconcileInvariants.StepKeeps | csv_scraper.js:311-392 | one same-meet step keeps that tie; it never replaces an index entry, never drops a row, never changes a name key, and never touches another meet |
| ReconcileInvariants.RunKeeps | csv_scraper.js:311-392 | the same holds for a whole same-meet batch |
| ReconcileInvariants.StepKeepsIdsUnique | csv_scraper.js:360-389 | one same-meet step keeps every id unique, given that every stored id outside the meet is in the working set |
| ReconcileInvariants.FreshKeyKeepsIdsUnique | csv_scraper.js:363-375 | inserting a key of the meet whose id is outside the working set keeps ids unique |
| ReconcileInvariants.UpdateSupabaseKeepsIdsUnique | csv_scraper.js:275-303 | when the global query lists every stored key, a store where no member_id is used twice across meets keeps that property through the pass, whatever the meet query and the write outcomes, in a store keyed by (member_id, meet) |
| ReconcileInvariants.GeneratedIdsDistinct | csv_scraper.js:293-303 | two ids drawn one after the other differ, because the first is recorded before the second is drawn |
| ReconcileInvariants.UpdateSupabaseKeepsStore | csv_scraper.js:240-402 | a same-meet batch leaves each name of the meet stored once, keeps every meet row under its name key with its non-null sessions, and leaves other meets untouched |

## Left out

- Browser automation, paging waits and DOM extraction in every scraper: browser I/O.
- Meet-name extraction from the page, with its clock fallback: DOM and clock I/O.
- The Supabase client, its configuration, and the `!supabase` guard. The store is a map,
  and query results and write outcomes are inputs.
- The Discord notification, the CSV/TS/JSON writers, and the string round trip through
  `Function(...)`: network, file I/O and dynamic evaluation.
- Exceptions thrown by the client, which the pass logs and rethrows. The model's queries
  either answer or fail with an error value.
- A query that returns neither data nor an error is not modelled apart from an empty
  answer, which the code treats the same way.
- `parseInt` producing NaN, and JavaScript `Infinity` arithmetic. Totals and ages are
  integers, and a class without digits is a missing numeral that ranks last.
- `toLowerCase` beyond ASCII letters: the model folds A-Z only.
- The distribution of `Math.random`: the model only states which ids the draw may return.
- Reconcile.Run: requires the working set plus the batch to fit in the id space. This is
  a sufficient condition for every draw to find a free id; the code's draw loop would spin
  forever once the space is exhausted.
- Reconcile.UpdateSupabase: requires the same bound on the global query's ids plus the
  batch, for the same reason.
- Reconcile.Step: does not model the mutation of the caller's entry objects. The pass
  overwrites their member_id and session fields in place, and the scraper returns those
  same objects to its caller.
- The raw gender cell (csv_scraper.js:148, :157) is any string in the code but the
  enum `Athletes.Gender` in the model. On a third value, or a missing cell, the code's
  comparator is not antisymmetric (`Ranking.GenderTextNotAntisymmetric`), and the order
  `Array.prototype.sort` then produces is implementation-defined. The claim that every
  stable sort gives the same list holds only for the two modelled genders.
- Inputs on which the pass throws before any write are outside the model's types: a
  stored meet row with a null `name` (csv_scraper.js:270), and an entry without a weight
  class, on which `getWeight` (csv_scraper.js:205) throws while the roster is sorted.
- The meet-name " - Members" suffix strip: it belongs to the meet-name extraction left out
  above.

=== FILE: athletes.dfy ===
/** The roster entry the scrapers extract and the store keeps: one athlete's registration
    for one meet. */
module Athletes {
  import opened Wrappers
  import Ranking

  /** Age and total are the `parseInt` results of their cells; the two session columns are
      never filled by a scrape (the feed sets them to null) and may be set later by hand. */
  datatype Entry = Entry(
    memberId: string,
    name: string,
    age: int,
    club: string,
    gender: Ranking.Gender,
    weightClass: string,
    entryTotal: int,
    sessionNumber: Option<int>,
    sessionPlatform: Option<string>,
    meet: string)
}

=== FILE: decimal.dfy ===
/** Decimal digit strings: what `parseInt` reads from a run of digits and what
    `Number.prototype.toString` writes for a non-negative integer. */
module Decimal {

  predicate IsDigit(c: char) {
    '0' <= c <= '9'
  }

  predicate AllDigits(s: string) {
    forall i :: 0 <= i < |s| ==> IsDigit(s[i])
  }

  /** No character of `s` is a decimal digit */
  predicate DigitFree(s: string) {
    forall i :: 0 <= i < |s| ==> !IsDigit(s[i])
  }

  function DigitValue(c: char): nat
    requires IsDigit(c)
  {
    c as int - '0' as int
  }

  function DigitChar(d: nat): char
    requires d < 10
  {
    ('0' as int + d) as char
  }

  /** The value `parseInt` gives a non-empty run of decimal digits (leading zeros allowed) */
  function DigitsValue(s: string): nat
    requires AllDigits(s)
    decreases |s|
  {
    if |s| == 0 then 0 else DigitsValue(s[..|s| - 1]) * 10 + DigitValue(s[|s| - 1])
  }

  /** `n.toString()` for a non-negative integer: its shortest decimal spelling */
  function ToDecimal(n: nat): (s: string)
    ensures 1 <= |s| && AllDigits(s)
    ensures |s| > 1 ==> s[0] != '0'
    decreases n
  {
    if n < 10 then [DigitChar(n)] else ToDecimal(n / 10) + [DigitChar(n % 10)]
  }

  function Pow10(k: nat): nat {
    if k == 0 then 1 else 10 * Pow10(k - 1)
  }

  /** Reading back what `toString` wrote gives the number again */
  lemma {:induction false} DigitsValueOfToDecimal(n: nat)
    ensures DigitsValue(ToDecimal(n)) == n
    decreases n
  {
    var s := ToDecimal(n);
    if n >= 10 {
      DigitsValueOfToDecimal(n / 10);
      assert s[..|s| - 1] == ToDecimal(n / 10);
    }
  }

  /** Distinct numbers have distinct decimal spellings */
  lemma ToDecimalInjective(m: nat, n: nat)
    ensures ToDecimal(m) == ToDecimal(n) ==> m == n
  {
    DigitsValueOfToDecimal(m);
    DigitsValueOfToDecimal(n);
  }

  /** A number in [10^k, 10^(k+1)) is written with exactly k + 1 digits */
  lemma {:induction false} ToDecimalLength(n: nat, k: nat)
    requires Pow10(k) <= n < Pow10(k + 1)
    ensures |ToDecimal(n)| == k + 1
    decreases k
  {
    if k > 0 {
      assert Pow10(k) == 10 * Pow10(k - 1);
      assert Pow10(k + 1) == 10 * Pow10(k);
      assert n >= 10;
      assert Pow10(k - 1) <= n / 10 < Pow10(k);
      ToDecimalLength(n / 10, k - 1);
    }
  }

  /** The synthetic member ids: nine decimal digits, the first not zero */
  predicate IsNineDigitId(s: string) {
    |s| == 9 && AllDigits(s) && s[0] != '0'
  }

  const IdLow: nat := 100000000
  const IdHigh: nat := 999999999

  /** Every number of [100000000, 999999999] is written as a nine-digit id */
  lemma NineDigitSpelling(n: nat)
    requires IdLow <= n <= IdHigh
    ensures IsNineDigitId(ToDecimal(n))
  {
    assert Pow10(8) == IdLow;
    assert Pow10(9) == IdHigh + 1;
    ToDecimalLength(n, 8);
  }

  /** Pigeonhole: a set of fewer strings than there are numbers in [lo, hi] misses the
      spelling of at least one of them */
  lemma {:induction false} FreeValueExists(used: set<string>, lo: nat, hi: nat)
    requires lo <= hi && |used| <= hi - lo
    ensures exists n :: lo <= n <= hi && ToDecimal(n) !in used
    decreases hi - lo
  {
    if ToDecimal(hi) !in used {
      return;
    }
    var rest := used - {ToDecimal(hi)};
    assert |rest| == |used| - 1;
    FreeValueExists(rest, lo, hi - 1);
    var n :| lo <= n <= hi - 1 && ToDecimal(n) !in rest;
    ToDecimalInjective(n, hi);
    assert ToDecimal(n) !in used;
  }
}

=== FILE: ranking.dfy ===
/** The ranking comparator every scraper sorts its entries with, as one lexicographic key:
    gender (Female first), weight numeral ascending (a class without a numeral last),
    non-plus before plus, then the entry total, descending in three scrapers and ascending
    in the adaptive-event scraper. */
module Ranking {
  import opened Wrappers
  import opened Weight

  datatype Gender = Female | Male

  /** The direction of the final tie-break on the entry total */
  datatype TotalOrder = Descending | Ascending

  /** Everything a comparator reads from an entry */
  datatype RankKey = RankKey(gender: Gender, weight: WeightKey, total: int)

  /** The sign of a comparator result; `Array.prototype.sort` looks at nothing else */
  datatype Ordering = Less | Same | Greater {
    function Flip(): Ordering {
      match this
      case Less => Greater
      case Same => Same
      case Greater => Less
    }
  }

  function Sign(x: int): Ordering {
    if x < 0 then Less else if x > 0 then Greater else Same
  }

  /** `weightA.value - weightB.value` once the numerals differ; `Infinity` minus a number
      is positive */
  function CompareNumerals(a: Option<nat>, b: Option<nat>): Ordering {
    match (a, b)
    case (None, None) => Same
    case (None, Some(_)) => Greater
    case (Some(_), None) => Less
    case (Some(x), Some(y)) => Sign(x as int - y as int)
  }

  /** The comparator, branch by branch as the scrapers write it */
  function Compare(o: TotalOrder, a: RankKey, b: RankKey): (r: Ordering)
    ensures r == Same <==> a == b
    ensures r == Less <==> RanksBefore(o, a, b)
  {
    if a.gender != b.gender then
      (if a.gender == Female then Less else Greater)
    else if a.weight.numeral != b.weight.numeral then
      CompareNumerals(a.weight.numeral, b.weight.numeral)
    else if a.weight.plus != b.weight.plus then
      (if a.weight.plus then Greater else Less)
    else match o
      case Descending => Sign(b.total - a.total)
      case Ascending => Sign(a.total - b.total)
  }

  /** `a` may stand before `b` in a sorted list */
  predicate Le(o: TotalOrder, a: RankKey, b: RankKey) {
    Compare(o, a, b) != Greater
  }

  // ---- The order the comparator is meant to impose, stated declaratively ----

  /** The numeral `a` comes strictly before the numeral `b`, `None` being infinite */
  predicate NumeralBefore(a: Option<nat>, b: Option<nat>) {
    a.Some? && (b.None? || a.value < b.value)
  }

  /** `a` ranks strictly before `b`: a Female before a Male, then a lower numeral, then
      non-plus before plus, then the better total in direction `o` */
  predicate RanksBefore(o: TotalOrder, a: RankKey, b: RankKey) {
    || (a.gender == Female && b.gender == Male)
    || (a.gender == b.gender && NumeralBefore(a.weight.numeral, b.weight.numeral))
    || (a.gender == b.gender && a.weight.numeral == b.weight.numeral && !a.weight.plus && b.weight.plus)
    || (a.gender == b.gender && a.weight == b.weight &&
        (if o == Descending then a.total > b.total else a.total < b.total))
  }

  /** The comparator says `Less` exactly when the declarative order puts `a` first, and
      `Same` exactly when the two keys are equal */
  lemma CompareMeansRanking(o: TotalOrder, a: RankKey, b: RankKey)
    ensures Compare(o, a, b) == Less <==> RanksBefore(o, a, b)
    ensures Compare(o, a, b) == Same <==> a == b
    ensures Compare(o, a, b) == Greater <==> RanksBefore(o, b, a)
  {
  }

  /** Swapping the arguments flips the answer */
  lemma CompareAntisymmetric(o: TotalOrder, a: RankKey, b: RankKey)
    ensures Compare(o, b, a) == Compare(o, a, b).Flip()
  {
  }

  /** The comparator is transitive, strictly and non-strictly */
  lemma CompareTransitive(o: TotalOrder, a: RankKey, b: RankKey, c: RankKey)
    ensures Le(o, a, b) && Le(o, b, c) ==> Le(o, a, c)
    ensures Compare(o, a, b) == Less && Le(o, b, c) ==> Compare(o, a, c) == Less
    ensures Le(o, a, b) && Compare(o, b, c) == Less ==> Compare(o, a, c) == Less
  {
    CompareMeansRanking(o, a, b);
    CompareMeansRanking(o, b, c);
    CompareMeansRanking(o, a, c);
  }

  /** `Le` is a total order on keys, hence a total preorder on anything ranked by a key */
  lemma LeTotalOrder(o: TotalOrder, a: RankKey, b: RankKey, c: RankKey)
    ensures Le(o, a, a)
    ensures Le(o, a, b) || Le(o, b, a)
    ensures Le(o, a, b) && Le(o, b, a) ==> a == b
    ensures Le(o, a, b) && Le(o, b, c) ==> Le(o, a, c)
  {
    CompareAntisymmetric(o, a, b);
    CompareTransitive(o, a, b, c);
  }

  // ---- The gender test on raw strings ----

  /** The gender branch of the three equality-based comparators on the raw column:
      `a !== b ? (a === 'Female' ? -1 : 1) : fall through` */
  function CompareGenderText(a: string, b: string): Ordering {
    if a != b then (if a == "Female" then Less else Greater) else Same
  }

  function GenderText(g: Gender): string {
    match g
    case Female => "Female"
    case Male => "Male"
  }

  /** On the two values the feed delivers, the raw test agrees with the enum's order */
  lemma GenderTextAgrees(g: Gender, h: Gender)
    ensures CompareGenderText(GenderText(g), GenderText(h)) == Compare(Descending,
      RankKey(g, WeightKey(None, false), 0), RankKey(h, WeightKey(None, false), 0))
  {
  }

  /** On any other text it is not antisymmetric: each of "Male" and "X" claims to come
      after the other, which is why the model ranks an enum */
  lemma GenderTextNotAntisymmetric()
    ensures CompareGenderText("Male", "X") == Greater
    ensures CompareGenderText("X", "Male") == Greater
  {
  }
}

=== FILE: reconcile.dfy ===
/** `updateSupabase`: merges one meet's scraped entries into the athlete store.
    The store is a map keyed by (member_id, meet). The two remote reads are inputs: the
    meet query's rows (four columns, in the order the store returns them) and the rows of
    the global (member_id, meet) query, each `None` when the query failed. Whether each
    write succeeds is an input too. The random draw of `generateUniqueMemberId` is a choice
    from the unused part of [100000000, 999999999]. */
module Reconcile {
  import opened Wrappers
  import opened Decimal
  import opened Text
  import opened Athletes
  import Ranking

  // ---- The store ----

  datatype RowKey = RowKey(memberId: string, meet: string)

  type Store = map<RowKey, Entry>

  function KeyOf(e: Entry): RowKey {
    RowKey(e.memberId, e.meet)
  }

  /** Every row sits under its own (member_id, meet) */
  predicate WellKeyed(store: Store) {
    forall k | k in store :: KeyOf(store[k]) == k
  }

  /** No member_id is stored under two meets: the property the id draw is meant to keep */
  predicate UniqueIds(store: Store) {
    forall k1, k2 | k1 in store && k2 in store && k1.memberId == k2.memberId :: k1 == k2
  }

  /** The four columns the meet query selects */
  datatype MeetRow = MeetRow(memberId: string, name: string,
                             sessionNumber: Option<int>, sessionPlatform: Option<string>)

  function MeetRowOf(e: Entry): MeetRow {
    MeetRow(e.memberId, e.name, e.sessionNumber, e.sessionPlatform)
  }

  /** A stored row as the change test sees it: a column that was not selected is absent,
      and an absent column compares unequal to every scraped value (`parseInt(undefined)`
      is NaN, and `undefined !== s` for every string `s`) */
  datatype Seen = Seen(memberId: string, name: string,
                       age: Option<int>, club: Option<string>, gender: Option<Ranking.Gender>,
                       weightClass: Option<string>, entryTotal: Option<int>,
                       sessionNumber: Option<int>, sessionPlatform: Option<string>)

  /** What the run knows of a row from the meet query, or of a row it has just inserted */
  function SeenOf(r: MeetRow): Seen {
    Seen(r.memberId, r.name, None, None, None, None, None, r.sessionNumber, r.sessionPlatform)
  }

  /** What it would know if every compared column were selected */
  function FullView(e: Entry): Seen {
    Seen(e.memberId, e.name, Some(e.age), Some(e.club), Some(e.gender), Some(e.weightClass),
         Some(e.entryTotal), e.sessionNumber, e.sessionPlatform)
  }

  /** None of the compared content columns is known */
  predicate Projected(s: Seen) {
    s.age.None? && s.club.None? && s.gender.None? && s.weightClass.None? && s.entryTotal.None?
  }

  // ---- Identity: the name index ----

  /** No row after `i` has the same normalised name as row `i` */
  predicate LastWithName(rows: seq<MeetRow>, i: int)
    requires 0 <= i < |rows|
  {
    forall j :: i < j < |rows| ==> Normalize(rows[j].name) != Normalize(rows[i].name)
  }

  /** Every row's normalised name is a key of `m` */
  predicate IndexKeys(rows: seq<MeetRow>, m: map<string, Seen>) {
    forall i :: 0 <= i < |rows| ==> Normalize(rows[i].name) in m
  }

  /** Row `i` is indexed under its normalised name in `m` */
  predicate IndexedAt(rows: seq<MeetRow>, m: map<string, Seen>, n: string, i: int) {
    0 <= i < |rows| && Normalize(rows[i].name) == n && n in m && m[n] == SeenOf(rows[i])
  }

  /** Every value of `m` is the view of a row whose name is its key */
  ghost predicate IndexValues(rows: seq<MeetRow>, m: map<string, Seen>) {
    forall n | n in m :: exists i :: IndexedAt(rows, m, n, i)
  }

  /** The last row with a given name is the one `m` keeps */
  predicate IndexLast(rows: seq<MeetRow>, m: map<string, Seen>) {
    forall i :: 0 <= i < |rows| && LastWithName(rows, i) ==> IndexedAt(rows, m, Normalize(rows[i].name), i)
  }

  /** `m` indexes `rows` by normalised name: every row's name is a key, every value is
      the view of a row with that name, and the last row with a name is the one kept */
  ghost predicate IndexOf(rows: seq<MeetRow>, m: map<string, Seen>) {
    IndexKeys(rows, m) && IndexValues(rows, m) && IndexLast(rows, m)
  }

  /** `existingByName`: the meet's rows keyed by normalised name, a later row replacing an
      earlier one with the same key */
  function IndexByName(rows: seq<MeetRow>): (m: map<string, Seen>)
    ensures IndexOf(rows, m)
    decreases |rows|
  {
    if |rows| == 0 then map[]
    else
      var m := IndexByName(rows[..|rows| - 1]);
      IndexExtendKeys(rows, m);
      IndexExtendValues(rows, m);
      IndexExtendLast(rows, m);
      m[Normalize(rows[|rows| - 1].name) := SeenOf(rows[|rows| - 1])]
  }

  lemma IndexExtendKeys(rows: seq<MeetRow>, m: map<string, Seen>)
    requires |rows| > 0 && IndexKeys(rows[..|rows| - 1], m)
    ensures IndexKeys(rows, m[Normalize(rows[|rows| - 1].name) := SeenOf(rows[|rows| - 1])])
  {
    var init := rows[..|rows| - 1];
    forall i | 0 <= i < |init| ensures Normalize(rows[i].name) in m {
      assert rows[i] == init[i];
    }
  }

  lemma IndexExtendValues(rows: seq<MeetRow>, m: map<string, Seen>)
    requires |rows| > 0 && IndexValues(rows[..|rows| - 1], m)
    ensures IndexValues(rows, m[Normalize(rows[|rows| - 1].name) := SeenOf(rows[|rows| - 1])])
  {
    var init, last := rows[..|rows| - 1], rows[|rows| - 1];
    var m' := m[Normalize(last.name) := SeenOf(last)];
    forall n | n in m' ensures exists i :: IndexedAt(rows, m', n, i) {
      if n == Normalize(last.name) {
        assert IndexedAt(rows, m', n, |init|);
      } else {
        var i :| IndexedAt(init, m, n, i);
        assert rows[i] == init[i];
        assert IndexedAt(rows, m', n, i);
      }
    }
  }

  lemma IndexExtendLast(rows: seq<MeetRow>, m: map<string, Seen>)
    requires |rows| > 0 && IndexLast(rows[..|rows| - 1], m)
    ensures IndexLast(rows, m[Normalize(rows[|rows| - 1].name) := SeenOf(rows[|rows| - 1])])
  {
    var init, last := rows[..|rows| - 1], rows[|rows| - 1];
    var m' := m[Normalize(last.name) := SeenOf(last)];
    forall i | 0 <= i < |rows| && LastWithName(rows, i)
      ensures IndexedAt(rows, m', Normalize(rows[i].name), i)
    {
      if i < |init| {
        assert rows[i] == init[i];
        assert Normalize(rows[|init|].name) != Normalize(rows[i].name);
        forall j | i < j < |init| ensures Normalize(init[j].name) != Normalize(init[i].name) {
          assert rows[j] == init[j];
        }
        assert LastWithName(init, i);
        assert IndexedAt(init, m, Normalize(init[i].name), i);
      }
    }
  }

  // ---- Change detection and the update row ----

  /** `hasChanges`: member_id, age, club, gender, weight class or total differs; the
      session columns take no part */
  predicate HasChanges(ex: Seen, e: Entry): (r: bool)
    ensures r <==> ex.(name := e.name, sessionNumber := e.sessionNumber, sessionPlatform := e.sessionPlatform) != FullView(e)
    ensures Projected(ex) ==> r
  {
    || ex.memberId != e.memberId
    || ex.age != Some(e.age)
    || ex.club != Some(e.club)
    || ex.gender != Some(e.gender)
    || ex.weightClass != Some(e.weightClass)
    || ex.entryTotal != Some(e.entryTotal)
  }

  /** A session column on update: a stored non-null value is kept, otherwise the
      incoming one is written */
  function MergeSession<T>(stored: Option<T>, incoming: Option<T>): (r: Option<T>)
    ensures stored.Some? ==> r == stored
    ensures stored.None? ==> r == incoming
  {
    if stored.Some? then stored else incoming
  }

  /** The row the update writes: the scraped entry under the stored member_id, with the
      stored session columns where they are set */
  function UpdatedRow(ex: Seen, e: Entry): (r: Entry)
    ensures KeyOf(r) == RowKey(ex.memberId, e.meet)
    ensures r.(memberId := e.memberId, sessionNumber := e.sessionNumber, sessionPlatform := e.sessionPlatform) == e
    ensures ex.sessionNumber.Some? ==> r.sessionNumber == ex.sessionNumber
    ensures ex.sessionPlatform.Some? ==> r.sessionPlatform == ex.sessionPlatform
    ensures r.sessionNumber.None? <==> ex.sessionNumber.None? && e.sessionNumber.None?
    ensures r.sessionPlatform.None? <==> ex.sessionPlatform.None? && e.sessionPlatform.None?
  {
    e.(memberId := ex.memberId,
       sessionNumber := MergeSession(ex.sessionNumber, e.sessionNumber),
       sessionPlatform := MergeSession(ex.sessionPlatform, e.sessionPlatform))
  }

  // ---- Writes ----

  /** `update(row).eq('member_id', k.memberId).eq('meet', k.meet)`: rewrites the row under
      `k`; a filter matching no row is not an error; `None` when the rewritten row would
      take the key of another row */
  function ApplyUpdate(store: Store, k: RowKey, row: Entry): (r: Option<Store>)
    ensures r.None? <==> k in store && KeyOf(row) != k && KeyOf(row) in store
    ensures r.Some? && k !in store ==> r.value == store
    ensures r.Some? && k in store ==>
      && r.value.Keys == store.Keys - {k} + {KeyOf(row)}
      && r.value[KeyOf(row)] == row
      && |r.value| == |store|
    ensures r.Some? ==> forall k' | k' in store && k' != k :: k' in r.value && r.value[k'] == store[k']
    ensures r.Some? && WellKeyed(store) ==> WellKeyed(r.value)
  {
    if k !in store then Some(store)
    else if KeyOf(row) != k && KeyOf(row) in store then None
    else Some((store - {k})[KeyOf(row) := row])
  }

  /** `insert(row)`: `None` when a row with the same key exists */
  function ApplyInsert(store: Store, row: Entry): (r: Option<Store>)
    ensures r.None? <==> KeyOf(row) in store
    ensures r.Some? ==>
      && r.value.Keys == store.Keys + {KeyOf(row)}
      && r.value[KeyOf(row)] == row
      && |r.value| == |store| + 1
    ensures r.Some? ==> forall k | k in store :: r.value[k] == store[k]
    ensures r.Some? && WellKeyed(store) ==> WellKeyed(r.value)
  {
    if KeyOf(row) in store then None else Some(store[KeyOf(row) := row])
  }

  // ---- Identifier generation ----

  /** Size of the synthetic id space [100000000, 999999999] */
  const IdSpace: nat := IdHigh - IdLow + 1

  /** Some nine-digit id is still unused, so the draw loop terminates */
  ghost predicate IdSpaceLeft(ids: set<string>) {
    exists n :: IdLow <= n <= IdHigh && ToDecimal(n) !in ids
  }

  /** Fewer ids than the space holds always leave one free */
  lemma SpaceLeftWhenSmall(ids: set<string>)
    requires |ids| < IdSpace
    ensures IdSpaceLeft(ids)
  {
    FreeValueExists(ids, IdLow, IdHigh);
  }

  /** `generateUniqueMemberId`: a nine-digit id not in the working set, which is added to
      the set at once */
  ghost function GenerateUniqueMemberId(ids: set<string>): (r: (string, set<string>))
    requires IdSpaceLeft(ids)
    ensures IsNineDigitId(r.0)
    ensures r.0 !in ids
    ensures r.1 == ids + {r.0}
  {
    var n :| IdLow <= n <= IdHigh && ToDecimal(n) !in ids;
    NineDigitSpelling(n);
    (ToDecimal(n), ids + {ToDecimal(n)})
  }

  // ---- One entry ----

  datatype Resolution =
    | Matched(existing: Seen)                  // the name is known: update that row
    | New(memberId: string, ids: set<string>)  // insert under this id; the working set after any draw

  /** Identity resolution: by normalised name within the meet; otherwise keep the scraped
      id unless the working set holds it, in which case draw a fresh one */
  ghost function Resolve(byName: map<string, Seen>, ids: set<string>, e: Entry): (r: Resolution)
    requires IdSpaceLeft(ids)
    ensures r.Matched? <==> Normalize(e.name) in byName
    ensures r.Matched? ==> r.existing == byName[Normalize(e.name)]
    ensures r.New? ==> (r.memberId == e.memberId <==> e.memberId !in ids)
    ensures r.New? && e.memberId !in ids ==> r.ids == ids
    ensures r.New? && e.memberId in ids ==> IsNineDigitId(r.memberId) && r.memberId !in ids && r.ids == ids + {r.memberId}
  {
    var n := Normalize(e.name);
    if n in byName then Matched(byName[n])
    else if e.memberId in ids then
      var (id, ids') := GenerateUniqueMemberId(ids);
      New(id, ids')
    else New(e.memberId, ids)
  }

  datatype Counts = Counts(processed: nat, inserted: nat, updated: nat, skipped: nat)

  /** The run state: the store, the name index, the working id set and the counters */
  datatype RunState = RunState(store: Store, byName: map<string, Seen>, ids: set<string>, counts: Counts)

  /** The store and the name index after inserting `row` under name key `n`, if it went in */
  function Inserted(st: RunState, n: string, row: Entry, ids: set<string>, writeOk: bool): (r: RunState)
    ensures r.ids == ids
    ensures r.counts.processed == st.counts.processed + 1
    ensures r.counts.updated == st.counts.updated && r.counts.skipped == st.counts.skipped
    ensures r.counts.inserted != st.counts.inserted <==> writeOk && KeyOf(row) !in st.store
    ensures r.counts.inserted != st.counts.inserted ==>
      && r.counts.inserted == st.counts.inserted + 1
      && KeyOf(row) in r.store && r.store[KeyOf(row)] == row
      && n in r.byName && r.byName[n].memberId == row.memberId
    ensures r.counts.inserted == st.counts.inserted ==> r.store == st.store && r.byName == st.byName
  {
    var written := if writeOk then ApplyInsert(st.store, row) else None;
    match written
    case Some(store) =>
      RunState(store, st.byName[n := SeenOf(MeetRowOf(row))], ids,
               st.counts.(processed := st.counts.processed + 1, inserted := st.counts.inserted + 1))
    case None =>
      st.(ids := ids, counts := st.counts.(processed := st.counts.processed + 1))
  }

  /** The loop body for one entry of the meet `meet`; `writeOk` says whether the store
      accepts the write it would make */
  ghost function Step(st: RunState, meet: string, e: Entry, writeOk: bool): (r: RunState)
    requires IdSpaceLeft(st.ids)
    ensures r.counts.processed == st.counts.processed + 1
    ensures st.ids <= r.ids && |r.ids| <= |st.ids| + 1
    ensures r.counts.inserted + r.counts.updated + r.counts.skipped
         <= st.counts.inserted + st.counts.updated + st.counts.skipped + 1
    ensures !writeOk ==> r.counts.inserted == st.counts.inserted && r.counts.updated == st.counts.updated
    ensures !writeOk ==> r.store == st.store
    ensures r.counts.skipped != st.counts.skipped <==>
      Normalize(e.name) in st.byName && !HasChanges(st.byName[Normalize(e.name)], e)
    ensures r.counts.skipped != st.counts.skipped ==> r.store == st.store
  {
    var n := Normalize(e.name);
    match Resolve(st.byName, st.ids, e)
    case Matched(ex) =>
      if !HasChanges(ex, e) then
        st.(counts := st.counts.(processed := st.counts.processed + 1, skipped := st.counts.skipped + 1))
      else
        var written := if writeOk then ApplyUpdate(st.store, RowKey(ex.memberId, meet), UpdatedRow(ex, e)) else None;
        (match written
         case Some(store) =>
           st.(store := store, counts := st.counts.(processed := st.counts.processed + 1, updated := st.counts.updated + 1))
         case None =>
           st.(counts := st.counts.(processed := st.counts.processed + 1)))
    case New(id, ids) =>
      Inserted(st, n, e.(memberId := id), ids, writeOk)
  }

  // ---- The batch ----

  /** The `for (const entry of entries)` loop; `oks[i]` says whether entry i's write succeeds */
  ghost function Run(st: RunState, meet: string, entries: seq<Entry>, oks: seq<bool>): (r: RunState)
    requires |oks| == |entries|
    requires |st.ids| + |entries| <= IdSpace
    ensures r.counts.processed == st.counts.processed + |entries|
    ensures st.ids <= r.ids && |r.ids| <= |st.ids| + |entries|
    ensures r.counts.inserted + r.counts.updated + r.counts.skipped
         <= st.counts.inserted + st.counts.updated + st.counts.skipped + |entries|
    decreases |entries|
  {
    if |entries| == 0 then st
    else
      SpaceLeftWhenSmall(st.ids);
      Run(Step(st, meet, entries[0], oks[0]), meet, entries[1..], oks[1..])
  }

  /** The member_ids of the global query's rows: each row's id, nothing else, and no
      more ids than rows */
  function IdsOf(rows: seq<RowKey>): (s: set<string>)
    ensures |s| <= |rows|
    ensures forall i | 0 <= i < |rows| :: rows[i].memberId in s
    ensures forall x | x in s :: exists i :: 0 <= i < |rows| && rows[i].memberId == x
    decreases |rows|
  {
    if |rows| == 0 then {}
    else
      var init := IdsOf(rows[..|rows| - 1]);
      assert forall i | 0 <= i < |rows| - 1 :: rows[..|rows| - 1][i] == rows[i];
      init + {rows[|rows| - 1].memberId}
  }

  /** `allExistingMemberIds`: the ids of the global query, empty when it failed */
  function WorkingIds(allRows: Option<seq<RowKey>>): (s: set<string>)
    ensures allRows.None? ==> s == {}
    ensures allRows.Some? ==> |s| <= |allRows.value|
    ensures allRows.Some? ==> forall i | 0 <= i < |allRows.value| :: allRows.value[i].memberId in s
    ensures forall x | x in s :: allRows.Some? && exists i :: 0 <= i < |allRows.value| && allRows.value[i].memberId == x
  {
    match allRows
    case None => {}
    case Some(rows) => IdsOf(rows)
  }

  /** The state the loop starts from once both queries have returned */
  function InitialState(store: Store, meetRows: seq<MeetRow>, allRows: Option<seq<RowKey>>): RunState {
    RunState(store, IndexByName(meetRows), WorkingIds(allRows), Counts(0, 0, 0, 0))
  }

  datatype Outcome = EmptyBatch | MeetFetchFailed | Completed(final: RunState)

  /** `updateSupabase(entries)` against `store`. The meet is that of the first entry. An
      empty batch or a failed meet query ends the run before any write; a failed global
      query does not. */
  ghost function UpdateSupabase(store: Store, entries: seq<Entry>, meetRows: Option<seq<MeetRow>>,
                                allRows: Option<seq<RowKey>>, oks: seq<bool>): (r: Outcome)
    requires |oks| == |entries|
    requires |WorkingIds(allRows)| + |entries| <= IdSpace
    ensures r.EmptyBatch? <==> |entries| == 0
    ensures r.MeetFetchFailed? <==> |entries| > 0 && meetRows.None?
    ensures r.Completed? ==> r.final.counts.processed == |entries|
    ensures r.Completed? ==> r.final.counts.inserted + r.final.counts.updated + r.final.counts.skipped <= |entries|
  {
    if |entries| == 0 then EmptyBatch
    else match meetRows
      case None => MeetFetchFailed
      case Some(rows) => Completed(Run(InitialState(store, rows, allRows), entries[0].meet, entries, oks))
  }
}

=== FILE: reconcile_invariants.dfy ===
/** The invariant that ties the name index to the store during a run over one meet, and
    what it yields: no athlete is stored twice in the meet, rows of other meets are never
    touched, and a session value the meet held when the run began is never lost. */
module ReconcileInvariants {
  import opened Wrappers
  import opened Text
  import opened Athletes
  import opened Reconcile
  import opened ReconcileProps

  /** The meet query returned the meet's rows: each answer is the four-column view of a
      stored row of the meet, and every stored row of the meet is answered */
  ghost predicate MeetQuery(store: Store, meet: string, rows: seq<MeetRow>) {
    && (forall i | 0 <= i < |rows| ::
          RowKey(rows[i].memberId, meet) in store && MeetRowOf(store[RowKey(rows[i].memberId, meet)]) == rows[i])
    && (forall k | k in store && k.meet == meet :: exists i :: 0 <= i < |rows| && rows[i].memberId == k.memberId)
  }

  /** No two rows of the meet carry names that normalise equal */
  ghost predicate UniqueNames(store: Store, meet: string) {
    forall k1, k2 | k1 in store && k2 in store && k1.meet == meet && k2.meet == meet
                    && Normalize(store[k1].name) == Normalize(store[k2].name) :: k1 == k2
  }

  /** The index entry for `n` names a stored row of the meet whose name normalises to `n`,
      and each session the entry holds is the one stored */
  ghost predicate Points(st: RunState, meet: string, n: string)
    requires n in st.byName
  {
    var ex := st.byName[n];
    var k := RowKey(ex.memberId, meet);
    && k in st.store
    && Normalize(st.store[k].name) == n
    && (ex.sessionNumber.Some? ==> st.store[k].sessionNumber == ex.sessionNumber)
    && (ex.sessionPlatform.Some? ==> st.store[k].sessionPlatform == ex.sessionPlatform)
  }

  /** Every row of the meet is the one the index holds for its name */
  ghost predicate Covered(st: RunState, meet: string, k: RowKey)
    requires k in st.store
  {
    var n := Normalize(st.store[k].name);
    n in st.byName && st.byName[n].memberId == k.memberId
  }

  /** The run invariant */
  ghost predicate Tracks(st: RunState, meet: string) {
    && WellKeyed(st.store)
    && (forall n | n in st.byName :: Points(st, meet, n))
    && (forall k | k in st.store && k.meet == meet :: Covered(st, meet, k))
  }

  /** From `st` to `r`: index entries are never replaced, every row stays, a row of the
      meet keeps its name key and a row of any other meet is untouched */
  ghost predicate Evolves(st: RunState, r: RunState, meet: string) {
    && (forall n | n in st.byName :: n in r.byName && r.byName[n] == st.byName[n])
    && (forall k | k in st.store :: k in r.store)
    && (forall k | k in st.store && k.meet == meet :: Normalize(r.store[k].name) == Normalize(st.store[k].name))
    && (forall k | k in st.store && k.meet != meet :: r.store[k] == st.store[k])
  }

  /** The invariant implies that the meet holds each name once */
  lemma TracksUnique(st: RunState, meet: string)
    requires Tracks(st, meet)
    ensures UniqueNames(st.store, meet)
  {
    forall k1, k2 | k1 in st.store && k2 in st.store && k1.meet == meet && k2.meet == meet
                    && Normalize(st.store[k1].name) == Normalize(st.store[k2].name)
      ensures k1 == k2
    {
      assert Covered(st, meet, k1) && Covered(st, meet, k2);
    }
  }

  // ---- The run starts in the invariant ----

  /** The index built from a faithful meet query mirrors each row of the meet */
  lemma IndexMirrors(store: Store, meet: string, rows: seq<MeetRow>, k: RowKey)
    requires WellKeyed(store) && MeetQuery(store, meet, rows) && UniqueNames(store, meet)
    requires k in store && k.meet == meet
    ensures Normalize(store[k].name) in IndexByName(rows)
    ensures IndexByName(rows)[Normalize(store[k].name)] == SeenOf(MeetRowOf(store[k]))
  {
    var m, n := IndexByName(rows), Normalize(store[k].name);
    var i :| 0 <= i < |rows| && rows[i].memberId == k.memberId;
    assert RowKey(rows[i].memberId, meet) == k;
    assert Normalize(rows[i].name) == n;
    var j :| IndexedAt(rows, m, n, j);
    var kj := RowKey(rows[j].memberId, meet);
    assert kj in store && MeetRowOf(store[kj]) == rows[j];
    assert kj == k;
  }

  lemma InitialTracks(store: Store, meet: string, rows: seq<MeetRow>, ids: set<string>)
    requires WellKeyed(store) && MeetQuery(store, meet, rows) && UniqueNames(store, meet)
    ensures Tracks(RunState(store, IndexByName(rows), ids, Counts(0, 0, 0, 0)), meet)
  {
    var st := RunState(store, IndexByName(rows), ids, Counts(0, 0, 0, 0));
    forall n | n in st.byName ensures Points(st, meet, n) {
      var i :| IndexedAt(rows, st.byName, n, i);
      assert MeetRowOf(store[RowKey(rows[i].memberId, meet)]) == rows[i];
    }
    forall k | k in store && k.meet == meet ensures Covered(st, meet, k) {
      IndexMirrors(store, meet, rows, k);
    }
  }

  // ---- One step keeps it ----

  /** A successful update rewrites the matched row in place */
  lemma UpdateKeeps(st: RunState, meet: string, e: Entry, r: RunState)
    requires Tracks(st, meet) && e.meet == meet
    requires Normalize(e.name) in st.byName
    requires var ex := st.byName[Normalize(e.name)];
             && ApplyUpdate(st.store, RowKey(ex.memberId, meet), UpdatedRow(ex, e)).Some?
             && r.store == ApplyUpdate(st.store, RowKey(ex.memberId, meet), UpdatedRow(ex, e)).value
             && r.byName == st.byName
    ensures Tracks(r, meet) && Evolves(st, r, meet)
  {
    var n := Normalize(e.name);
    var ex := st.byName[n];
    var k := RowKey(ex.memberId, meet);
    var row := UpdatedRow(ex, e);
    assert Points(st, meet, n);
    assert KeyOf(row) == k;
    assert r.store.Keys == st.store.Keys && r.store[k] == row;
    forall n' | n' in r.byName ensures Points(r, meet, n') {
      assert Points(st, meet, n');
    }
    forall k' | k' in r.store && k'.meet == meet ensures Covered(r, meet, k') {
      assert Covered(st, meet, k');
    }
  }

  /** A successful insert adds the row and its name key together */
  lemma InsertKeeps(st: RunState, meet: string, e: Entry, id: string, ids: set<string>, r: RunState)
    requires Tracks(st, meet) && e.meet == meet
    requires Normalize(e.name) !in st.byName
    requires ApplyInsert(st.store, e.(memberId := id)).Some?
    requires r == Inserted(st, Normalize(e.name), e.(memberId := id), ids, true)
    ensures Tracks(r, meet) && Evolves(st, r, meet)
  {
    var n := Normalize(e.name);
    var row := e.(memberId := id);
    var key := RowKey(id, meet);
    assert KeyOf(row) == key && key !in st.store;
    assert r.store.Keys == st.store.Keys + {key} && r.store[key] == row;
    assert r.byName == st.byName[n := SeenOf(MeetRowOf(row))];
    forall n' | n' in r.byName ensures Points(r, meet, n') {
      if n' != n {
        assert Points(st, meet, n');
      }
    }
    forall k' | k' in r.store && k'.meet == meet ensures Covered(r, meet, k') {
      if k' != key {
        assert Covered(st, meet, k');
      }
    }
  }

  lemma StepKeeps(st: RunState, meet: string, e: Entry, ok: bool)
    requires IdSpaceLeft(st.ids) && Tracks(st, meet) && e.meet == meet
    ensures Tracks(Step(st, meet, e, ok), meet) && Evolves(st, Step(st, meet, e, ok), meet)
  {
    var r := Step(st, meet, e, ok);
    match Resolve(st.byName, st.ids, e)
    case Matched(ex) =>
      var upd := ApplyUpdate(st.store, RowKey(ex.memberId, meet), UpdatedRow(ex, e));
      if HasChanges(ex, e) && ok && upd.Some? {
        UpdateKeeps(st, meet, e, r);
      } else {
        UnchangedKeeps(st, meet, r);
      }
    case New(id, ids) =>
      if ok && ApplyInsert(st.store, e.(memberId := id)).Some? {
        InsertKeeps(st, meet, e, id, ids, r);
      } else {
        UnchangedKeeps(st, meet, r);
      }
  }

  /** A step that writes nothing leaves the store and the index as they were */
  lemma UnchangedKeeps(st: RunState, meet: string, r: RunState)
    requires Tracks(st, meet) && r.store == st.store && r.byName == st.byName
    ensures Tracks(r, meet) && Evolves(st, r, meet)
  {
    forall n | n in r.byName ensures Points(r, meet, n) {
      assert Points(st, meet, n);
    }
    forall k | k in r.store && k.meet == meet ensures Covered(r, meet, k) {
      assert Covered(st, meet, k);
    }
  }

  lemma EvolvesTrans(a: RunState, b: RunState, c: RunState, meet: string)
    requires Evolves(a, b, meet) && Evolves(b, c, meet)
    ensures Evolves(a, c, meet)
  {
  }

  lemma {:induction false} RunKeeps(st: RunState, meet: string, entries: seq<Entry>, oks: seq<bool>)
    requires |oks| == |entries| && |st.ids| + |entries| <= IdSpace
    requires Tracks(st, meet) && SameMeet(entries, meet)
    ensures Tracks(Run(st, meet, entries, oks), meet)
    ensures Evolves(st, Run(st, meet, entries, oks), meet)
    decreases |entries|
  {
    if |entries| > 0 {
      SpaceLeftWhenSmall(st.ids);
      var s1 := Step(st, meet, entries[0], oks[0]);
      StepKeeps(st, meet, entries[0], oks[0]);
      RunKeeps(s1, meet, entries[1..], oks[1..]);
      EvolvesTrans(st, s1, Run(s1, meet, entries[1..], oks[1..]), meet);
    }
  }

  // ---- The theorem ----

  /** A session value survives from `s0[k]` to `s[k]` */
  predicate SessionsKept(s0: Entry, s: Entry) {
    && (s0.sessionNumber.Some? ==> s.sessionNumber == s0.sessionNumber)
    && (s0.sessionPlatform.Some? ==> s.sessionPlatform == s0.sessionPlatform)
  }

  /** A run over one meet, starting from a faithful meet query against a store that holds
      each name of the meet once, ends with each name of the meet held once; every row of
      the meet is still there under its name key with its non-null sessions; every row of
      another meet is unchanged */
  lemma UpdateSupabaseKeepsStore(store: Store, entries: seq<Entry>, rows: seq<MeetRow>,
                                 allRows: Option<seq<RowKey>>, oks: seq<bool>)
    requires |oks| == |entries| && |WorkingIds(allRows)| + |entries| <= IdSpace
    requires |entries| > 0 && SameMeet(entries, entries[0].meet)
    requires WellKeyed(store) && MeetQuery(store, entries[0].meet, rows) && UniqueNames(store, entries[0].meet)
    ensures UpdateSupabase(store, entries, Some(rows), allRows, oks).Completed?
    ensures var f := UpdateSupabase(store, entries, Some(rows), allRows, oks).final.store;
            && UniqueNames(f, entries[0].meet)
            && (forall k | k in store :: k in f)
            && (forall k | k in store && k.meet == entries[0].meet ::
                  Normalize(f[k].name) == Normalize(store[k].name) && SessionsKept(store[k], f[k]))
            && (forall k | k in store && k.meet != entries[0].meet :: f[k] == store[k])
  {
    var meet := entries[0].meet;
    var st := InitialState(store, rows, allRows);
    InitialTracks(store, meet, rows, WorkingIds(allRows));
    RunKeeps(st, meet, entries, oks);
    var fin := Run(st, meet, entries, oks);
    TracksUnique(fin, meet);
    forall k | k in store && k.meet == meet ensures SessionsKept(store[k], fin.store[k]) {
      var n := Normalize(store[k].name);
      IndexMirrors(store, meet, rows, k);
      assert st.byName[n] == SeenOf(MeetRowOf(store[k]));
      assert fin.byName[n] == st.byName[n];
      assert Covered(fin, meet, k);
      assert Points(fin, meet, n);
    }
  }

  // ---- Member ids stay unique across meets ----

  /** Every stored id is in the working set, except on rows of the run's own meet */
  predicate IdCover(st: RunState, meet: string) {
    forall k | k in st.store :: k.memberId in st.ids || k.meet == meet
  }

  /** The global query listed every stored (member_id, meet) */
  predicate ListsAllKeys(store: Store, allRows: seq<RowKey>) {
    forall k | k in store :: exists i :: 0 <= i < |allRows| && allRows[i] == k
  }

  /** An update keeps the key set; an insert takes an id outside the working set, which
      only a row of the meet under that very key could hold, and the insert succeeded */
  lemma StepKeepsIdsUnique(st: RunState, meet: string, e: Entry, ok: bool)
    requires IdSpaceLeft(st.ids) && e.meet == meet
    requires UniqueIds(st.store) && IdCover(st, meet)
    ensures UniqueIds(Step(st, meet, e, ok).store) && IdCover(Step(st, meet, e, ok), meet)
  {
    var r := Step(st, meet, e, ok);
    match Resolve(st.byName, st.ids, e)
    case Matched(ex) =>
      var k := RowKey(ex.memberId, meet);
      assert KeyOf(UpdatedRow(ex, e)) == k;
      assert r.store.Keys == st.store.Keys;
    case New(id, ids) =>
      assert id !in st.ids;
      var key := RowKey(id, meet);
      if r.counts.inserted != st.counts.inserted {
        assert r.store.Keys == st.store.Keys + {key};
        FreshKeyKeepsIdsUnique(st.store, st.ids, meet, key, r.store);
      }
  }

  /** Adding a key of the meet whose id is outside the working set keeps the ids unique */
  lemma FreshKeyKeepsIdsUnique(store: Store, ids: set<string>, meet: string, key: RowKey, s: Store)
    requires UniqueIds(store) && (forall k | k in store :: k.memberId in ids || k.meet == meet)
    requires key.meet == meet && key.memberId !in ids && key !in store
    requires s.Keys == store.Keys + {key}
    ensures UniqueIds(s)
  {
  }

  lemma {:induction false} RunKeepsIdsUnique(st: RunState, meet: string, entries: seq<Entry>, oks: seq<bool>)
    requires |oks| == |entries| && |st.ids| + |entries| <= IdSpace && SameMeet(entries, meet)
    requires UniqueIds(st.store) && IdCover(st, meet)
    ensures UniqueIds(Run(st, meet, entries, oks).store)
    decreases |entries|
  {
    if |entries| > 0 {
      SpaceLeftWhenSmall(st.ids);
      StepKeepsIdsUnique(st, meet, entries[0], oks[0]);
      RunKeepsIdsUnique(Step(st, meet, entries[0], oks[0]), meet, entries[1..], oks[1..]);
    }
  }

  /** When the global query answers with every stored key, a store in which no member_id
      is used twice (across all meets) still has that property after the run, whatever
      the meet query returned and whichever writes failed */
  lemma UpdateSupabaseKeepsIdsUnique(store: Store, entries: seq<Entry>, rows: seq<MeetRow>,
                                     allRows: seq<RowKey>, oks: seq<bool>)
    requires |oks| == |entries| && |IdsOf(allRows)| + |entries| <= IdSpace
    requires |entries| > 0 && SameMeet(entries, entries[0].meet)
    requires UniqueIds(store) && ListsAllKeys(store, allRows)
    ensures UpdateSupabase(store, entries, Some(rows), Some(allRows), oks).Completed?
    ensures UniqueIds(UpdateSupabase(store, entries, Some(rows), Some(allRows), oks).final.store)
  {
    var st := InitialState(store, rows, Some(allRows));
    forall k | k in st.store ensures k.memberId in st.ids {
      var i :| 0 <= i < |allRows| && allRows[i] == k;
    }
    RunKeepsIdsUnique(st, entries[0].meet, entries, oks);
  }

  /** Two ids drawn one after the other in a run differ: the first is in the working set
      when the second is drawn */
  lemma GeneratedIdsDistinct(ids: set<string>)
    requires |ids| + 2 <= IdSpace
    ensures IdSpaceLeft(ids)
    ensures IdSpaceLeft(GenerateUniqueMemberId(ids).1)
    ensures GenerateUniqueMemberId(GenerateUniqueMemberId(ids).1).0 != GenerateUniqueMemberId(ids).0
  {
    SpaceLeftWhenSmall(ids);
    var (a, ids1) := GenerateUniqueMemberId(ids);
    assert |ids1| == |ids| + 1;
    SpaceLeftWhenSmall(ids1);
  }
}

=== FILE: reconcile_props.dfy ===
/** What the reconciliation pass guarantees, and what it does not: the single-step
    guarantees over the store, the name index and the id set, and the four behaviours in
    which the code departs from what its comments intend. */
module ReconcileProps {
  import opened Wrappers
  import opened Decimal
  import opened Text
  import opened Athletes
  import opened Reconcile

  // ---- (a) The skip branch is unreachable ----

  /** Every value of the index is a row as the four-column meet query returns it */
  predicate AllProjected(byName: map<string, Seen>) {
    forall n | n in byName :: Projected(byName[n])
  }

  /** The index built from the meet query holds only projected rows */
  lemma IndexProjected(rows: seq<MeetRow>)
    ensures AllProjected(IndexByName(rows))
  {
    var m := IndexByName(rows);
    forall n | n in m ensures Projected(m[n]) {
      var i :| IndexedAt(rows, m, n, i);
    }
  }

  /** A projected row differs from every scraped entry */
  lemma ProjectedAlwaysChanged(ex: Seen, e: Entry)
    requires Projected(ex)
    ensures HasChanges(ex, e)
  {
  }

  /** One step keeps the index projected and never counts a skip */
  lemma StepNeverSkips(st: RunState, meet: string, e: Entry, ok: bool)
    requires IdSpaceLeft(st.ids) && AllProjected(st.byName)
    ensures AllProjected(Step(st, meet, e, ok).byName)
    ensures Step(st, meet, e, ok).counts.skipped == st.counts.skipped
  {
    var n := Normalize(e.name);
    if n in st.byName {
      ProjectedAlwaysChanged(st.byName[n], e);
    }
  }

  /** No entry of a run is ever skipped */
  lemma {:induction false} RunNeverSkips(st: RunState, meet: string, entries: seq<Entry>, oks: seq<bool>)
    requires |oks| == |entries| && |st.ids| + |entries| <= IdSpace
    requires AllProjected(st.byName)
    ensures AllProjected(Run(st, meet, entries, oks).byName)
    ensures Run(st, meet, entries, oks).counts.skipped == st.counts.skipped
    decreases |entries|
  {
    if |entries| > 0 {
      SpaceLeftWhenSmall(st.ids);
      StepNeverSkips(st, meet, entries[0], oks[0]);
      RunNeverSkips(Step(st, meet, entries[0], oks[0]), meet, entries[1..], oks[1..]);
    }
  }

  /** (a) Because the meet query selects no content column, `skippedCount` stays 0 */
  lemma SkipBranchUnreachable(store: Store, entries: seq<Entry>, meetRows: Option<seq<MeetRow>>,
                              allRows: Option<seq<RowKey>>, oks: seq<bool>)
    requires |oks| == |entries| && |WorkingIds(allRows)| + |entries| <= IdSpace
    ensures UpdateSupabase(store, entries, meetRows, allRows, oks).Completed? ==>
              UpdateSupabase(store, entries, meetRows, allRows, oks).final.counts.skipped == 0
  {
    if |entries| > 0 && meetRows.Some? {
      IndexProjected(meetRows.value);
      RunNeverSkips(InitialState(store, meetRows.value, allRows), entries[0].meet, entries, oks);
    }
  }

  // ---- One entry ----

  /** On a name match with changes the write goes to the stored (member_id, meet) row, it
      carries the stored member_id, and no other row is touched */
  lemma UpdateTouchesOnlyMatchedRow(st: RunState, meet: string, e: Entry, ok: bool)
    requires IdSpaceLeft(st.ids) && WellKeyed(st.store)
    requires Normalize(e.name) in st.byName && e.meet == meet
    ensures var ex := st.byName[Normalize(e.name)];
            var k := RowKey(ex.memberId, meet);
            var r := Step(st, meet, e, ok);
            && r.byName == st.byName && r.ids == st.ids
            && r.counts.inserted == st.counts.inserted
            && (forall k' | k' in st.store && k' != k :: k' in r.store && r.store[k'] == st.store[k'])
            && (forall k' | k' in r.store && k' != k :: k' in st.store)
            && (r.store != st.store ==> k in st.store && k in r.store && r.store[k].memberId == ex.memberId
                                        && r.store[k].meet == meet && r.counts.updated == st.counts.updated + 1)
  {
    var ex := st.byName[Normalize(e.name)];
    assert KeyOf(UpdatedRow(ex, e)) == RowKey(ex.memberId, meet);
  }

  /** A session column is merged from its own stored and incoming values alone */
  lemma SessionsIndependent(ex: Seen, e: Entry, number: Option<int>, platform: Option<string>)
    ensures UpdatedRow(ex, e.(sessionPlatform := platform)).sessionNumber == UpdatedRow(ex, e).sessionNumber
    ensures UpdatedRow(ex, e.(sessionNumber := number)).sessionPlatform == UpdatedRow(ex, e).sessionPlatform
    ensures UpdatedRow(ex, e).sessionNumber == (if ex.sessionNumber.Some? then ex.sessionNumber else e.sessionNumber)
    ensures UpdatedRow(ex, e).sessionPlatform == (if ex.sessionPlatform.Some? then ex.sessionPlatform else e.sessionPlatform)
    ensures UpdatedRow(ex, e).(sessionNumber := e.sessionNumber, sessionPlatform := e.sessionPlatform)
         == e.(memberId := ex.memberId)
  {
  }

  /** A matched entry never inserts, whatever the store answers */
  lemma MatchedNeverInserts(st: RunState, meet: string, e: Entry, ok: bool)
    requires IdSpaceLeft(st.ids) && Normalize(e.name) in st.byName
    ensures Step(st, meet, e, ok).counts.inserted == st.counts.inserted
    ensures Step(st, meet, e, ok).byName == st.byName
  {
  }

  /** An insert registers the name: a later entry whose name normalises the same is
      matched to the inserted row, under the id it was inserted with */
  lemma InsertThenUpdate(st: RunState, meet: string, e: Entry, later: Entry)
    requires IdSpaceLeft(st.ids)
    requires Normalize(e.name) !in st.byName && Normalize(later.name) == Normalize(e.name)
    ensures var r := Step(st, meet, e, true);
            r.counts.inserted == st.counts.inserted + 1 ==>
              && Normalize(later.name) in r.byName
              && RowKey(r.byName[Normalize(later.name)].memberId, e.meet) in r.store
              && r.store[RowKey(r.byName[Normalize(later.name)].memberId, e.meet)].name == e.name
  {
    var res := Resolve(st.byName, st.ids, e);
    assert res.New?;
  }

  /** All entries belong to the meet */
  predicate SameMeet(entries: seq<Entry>, meet: string) {
    forall i | 0 <= i < |entries| :: entries[i].meet == meet
  }

  /** Re-running a batch whose athletes are all stored rewrites every one of them: with
      every write accepted, each entry is counted as updated, none as skipped. A second
      run over the same input is therefore never free of writes. */
  lemma {:induction false} RerunRewritesEveryEntry(st: RunState, meet: string, entries: seq<Entry>, oks: seq<bool>)
    requires |oks| == |entries| && |st.ids| + |entries| <= IdSpace
    requires AllProjected(st.byName) && SameMeet(entries, meet)
    requires forall i | 0 <= i < |entries| :: Normalize(entries[i].name) in st.byName && oks[i]
    ensures Run(st, meet, entries, oks).counts.updated == st.counts.updated + |entries|
    ensures Run(st, meet, entries, oks).counts.inserted == st.counts.inserted
    decreases |entries|
  {
    if |entries| > 0 {
      SpaceLeftWhenSmall(st.ids);
      var e := entries[0];
      var ex := st.byName[Normalize(e.name)];
      ProjectedAlwaysChanged(ex, e);
      assert KeyOf(UpdatedRow(ex, e)) == RowKey(ex.memberId, meet);
      StepNeverSkips(st, meet, e, oks[0]);
      var s1 := Step(st, meet, e, oks[0]);
      assert s1.byName == st.byName;
      assert s1.counts.updated == st.counts.updated + 1;
      RerunRewritesEveryEntry(s1, meet, entries[1..], oks[1..]);
    }
  }

  /** The batch run a second time, once its athletes are stored in the meet: with every
      write accepted, every entry is rewritten */
  lemma SecondRunRewrites(store: Store, entries: seq<Entry>, rows: seq<MeetRow>,
                          allRows: Option<seq<RowKey>>, oks: seq<bool>)
    requires |oks| == |entries| && |WorkingIds(allRows)| + |entries| <= IdSpace
    requires |entries| > 0 && SameMeet(entries, entries[0].meet)
    requires forall i | 0 <= i < |entries| :: Normalize(entries[i].name) in IndexByName(rows) && oks[i]
    ensures UpdateSupabase(store, entries, Some(rows), allRows, oks).Completed?
    ensures UpdateSupabase(store, entries, Some(rows), allRows, oks).final.counts
         == Counts(|entries|, 0, |entries|, 0)
  {
    IndexProjected(rows);
    RerunRewritesEveryEntry(InitialState(store, rows, allRows), entries[0].meet, entries, oks);
    RunNeverSkips(InitialState(store, rows, allRows), entries[0].meet, entries, oks);
  }

  // ---- (b) The change test compares member_id ----

  /** (b) Against a stored row whose every column is known, the change test reports no
      change exactly when the stored row carries the entry's member_id and content;
      name, meet and sessions take no part. A row inserted under a regenerated id
      therefore reads as changed on every later run. */
  lemma FullViewChanged(stored: Entry, e: Entry)
    ensures !HasChanges(FullView(stored), e) <==>
              stored.(name := e.name, sessionNumber := e.sessionNumber,
                      sessionPlatform := e.sessionPlatform, meet := e.meet) == e
    ensures stored.memberId != e.memberId ==> HasChanges(FullView(stored), e)
  {
  }

  /** (b) An entry whose id was taken is stored under a new id, so the row it leaves
      behind differs from it in member_id */
  lemma RegeneratedIdAlwaysChanged(st: RunState, meet: string, e: Entry)
    requires IdSpaceLeft(st.ids)
    requires Normalize(e.name) !in st.byName && e.memberId in st.ids
    ensures forall k | k in Step(st, meet, e, true).store && k !in st.store ::
              HasChanges(FullView(Step(st, meet, e, true).store[k]), e)
  {
    var r := Step(st, meet, e, true);
    var res := Resolve(st.byName, st.ids, e);
    assert res.New? && res.memberId != e.memberId;
    forall k | k in r.store && k !in st.store ensures HasChanges(FullView(r.store[k]), e) {
      assert r.store[k] == e.(memberId := res.memberId);
    }
  }

  // ---- (c) Accepted ids are not added to the working set ----

  /** Whatever a step adds to the working set is a generated nine-digit id, and a step
      whose scraped id is not in the set adds nothing */
  lemma StepAddsOnlyGenerated(st: RunState, meet: string, e: Entry, ok: bool)
    requires IdSpaceLeft(st.ids)
    ensures forall x | x in Step(st, meet, e, ok).ids && x !in st.ids :: IsNineDigitId(x)
    ensures e.memberId !in st.ids ==> Step(st, meet, e, ok).ids == st.ids
  {
    var res := Resolve(st.byName, st.ids, e);
    if res.New? {
      assert Step(st, meet, e, ok).ids == res.ids;
    }
  }

  /** (c) Over a whole run the working set only gains generated ids; an id taken from the
      scrape as it is never enters it */
  lemma {:induction false} RunAddsOnlyGenerated(st: RunState, meet: string, entries: seq<Entry>, oks: seq<bool>)
    requires |oks| == |entries| && |st.ids| + |entries| <= IdSpace
    ensures forall x | x in Run(st, meet, entries, oks).ids && x !in st.ids :: IsNineDigitId(x)
    decreases |entries|
  {
    if |entries| > 0 {
      SpaceLeftWhenSmall(st.ids);
      StepAddsOnlyGenerated(st, meet, entries[0], oks[0]);
      RunAddsOnlyGenerated(Step(st, meet, entries[0], oks[0]), meet, entries[1..], oks[1..]);
    }
  }

  /** (c) A batch whose scraped ids are all outside the working set draws nothing, so the
      ids it accepts as they are never enter the set, not even to guard later entries */
  lemma {:induction false} AcceptedIdsNeverRecorded(st: RunState, meet: string, entries: seq<Entry>, oks: seq<bool>)
    requires |oks| == |entries| && |st.ids| + |entries| <= IdSpace
    requires forall i | 0 <= i < |entries| :: entries[i].memberId !in st.ids
    ensures Run(st, meet, entries, oks).ids == st.ids
    decreases |entries|
  {
    if |entries| > 0 {
      SpaceLeftWhenSmall(st.ids);
      StepAddsOnlyGenerated(st, meet, entries[0], oks[0]);
      var s1 := Step(st, meet, entries[0], oks[0]);
      assert forall i | 0 <= i < |entries[1..]| :: entries[1..][i] == entries[i + 1];
      AcceptedIdsNeverRecorded(s1, meet, entries[1..], oks[1..]);
    }
  }

  /** (c) Two new athletes of one batch with the same unused raw id: the first is
      inserted and its id is not recorded, so the second keeps the same id and its
      insert fails on the existing (member_id, meet) key, dropping that athlete */
  lemma SameBatchIdNotCaught(st: RunState, e1: Entry, e2: Entry)
    requires IdSpaceLeft(st.ids)
    requires e1.memberId == e2.memberId && e1.meet == e2.meet && e1.memberId !in st.ids
    requires Normalize(e1.name) !in st.byName && Normalize(e2.name) !in st.byName
    requires Normalize(e1.name) != Normalize(e2.name)
    requires KeyOf(e1) !in st.store
    ensures Step(st, e1.meet, e1, true).ids == st.ids
    ensures Step(st, e1.meet, e1, true).counts.inserted == st.counts.inserted + 1
    ensures Step(Step(st, e1.meet, e1, true), e1.meet, e2, true).store == Step(st, e1.meet, e1, true).store
    ensures Step(Step(st, e1.meet, e1, true), e1.meet, e2, true).counts.inserted
         == Step(st, e1.meet, e1, true).counts.inserted
  {
    var s1 := Step(st, e1.meet, e1, true);
    assert KeyOf(e1) in s1.store;
    assert Normalize(e2.name) !in s1.byName;
  }

  // ---- (d) A failed global query is only logged ----

  const Regionals: string := "Regionals 2025"
  const States: string := "States 2025"

  /** John Roe, registered for States under the id 1001 already used at Regionals */
  function Roe(): Entry {
    Entry("1001", "John Roe", 30, "Club", Ranking.Male, "89", 200, None, None, States)
  }

  /** The store holds 1001 at Regionals only */
  function RegionalsStore(): Store {
    map[RowKey("1001", Regionals) := Roe().(name := "Jim Poe", meet := Regionals)]
  }

  /** (d) With the global query answered, John Roe is inserted under a fresh nine-digit
      id and every id stays unique; when it fails, the run goes on with an empty working
      set and stores him under 1001 a second time */
  lemma IdFetchFailureIgnored()
    ensures UpdateSupabase(RegionalsStore(), [Roe()], Some([]), None, [true]).Completed?
    ensures var f := UpdateSupabase(RegionalsStore(), [Roe()], Some([]), None, [true]).final;
            && f.counts.inserted == 1
            && RowKey("1001", States) in f.store && RowKey("1001", Regionals) in f.store
            && !UniqueIds(f.store)
    ensures UpdateSupabase(RegionalsStore(), [Roe()], Some([]), Some([RowKey("1001", Regionals)]), [true]).Completed?
    ensures var f := UpdateSupabase(RegionalsStore(), [Roe()], Some([]), Some([RowKey("1001", Regionals)]), [true]).final;
            && f.counts.inserted == 1
            && RowKey("1001", States) !in f.store
            && (exists k | k in f.store :: k.meet == States && IsNineDigitId(k.memberId) && k.memberId != "1001")
            && UniqueIds(f.store)
  {
    IdQueryFailed();
    IdQueryAnswered();
  }

  /** The failed half: the run's only step inserts John Roe under his scraped id */
  lemma IdQueryFailed()
    ensures UpdateSupabase(RegionalsStore(), [Roe()], Some([]), None, [true]).Completed?
    ensures var f := UpdateSupabase(RegionalsStore(), [Roe()], Some([]), None, [true]).final;
            && f.counts.inserted == 1
            && RowKey("1001", States) in f.store && RowKey("1001", Regionals) in f.store
            && !UniqueIds(f.store)
  {
    assert IndexByName([]) == map[];
    SpaceLeftWhenSmall({});
    var st := InitialState(RegionalsStore(), [], None);
    assert st.byName == map[] && st.ids == {};
    var s1 := Step(st, States, Roe(), true);
    assert s1 == Inserted(st, Normalize(Roe().name), Roe(), {}, true);
    assert Run(st, States, [Roe()], [true]) == Run(s1, States, [], []) == s1;
  }

  /** The answered half: the step draws an id outside {1001} and inserts under it */
  lemma IdQueryAnswered()
    ensures UpdateSupabase(RegionalsStore(), [Roe()], Some([]), Some([RowKey("1001", Regionals)]), [true]).Completed?
    ensures var f := UpdateSupabase(RegionalsStore(), [Roe()], Some([]), Some([RowKey("1001", Regionals)]), [true]).final;
            && f.counts.inserted == 1
            && RowKey("1001", States) !in f.store
            && (exists k | k in f.store :: k.meet == States && IsNineDigitId(k.memberId) && k.memberId != "1001")
            && UniqueIds(f.store)
  {
    var id, f := AnsweredRun();
    assert RowKey(id, States) in f.store;
    TwoIdsUnique(f.store, RowKey("1001", Regionals), RowKey(id, States));
  }

  /** A store of two keys with different ids has unique ids */
  lemma TwoIdsUnique(s: Store, a: RowKey, b: RowKey)
    requires s.Keys == {a, b} && a.memberId != b.memberId
    ensures UniqueIds(s)
  {
    forall k1, k2 | k1 in s && k2 in s && k1.memberId == k2.memberId ensures k1 == k2 {
      assert k1 in {a, b} && k2 in {a, b};
    }
  }

  /** The answered run, computed: one insert under a drawn id */
  lemma AnsweredRun() returns (id: string, f: RunState)
    ensures UpdateSupabase(RegionalsStore(), [Roe()], Some([]), Some([RowKey("1001", Regionals)]), [true]) == Completed(f)
    ensures IsNineDigitId(id) && id != "1001"
    ensures f.counts.inserted == 1 && f.store.Keys == {RowKey("1001", Regionals), RowKey(id, States)}
  {
    assert WorkingIds(Some([RowKey("1001", Regionals)])) == {"1001"};
    assert IndexByName([]) == map[];
    SpaceLeftWhenSmall({"1001"});
    var st := InitialState(RegionalsStore(), [], Some([RowKey("1001", Regionals)]));
    assert st.byName == map[] && st.ids == {"1001"};
    var res := Resolve(st.byName, st.ids, Roe());
    id := res.memberId;
    var s1 := Step(st, States, Roe(), true);
    assert s1 == Inserted(st, Normalize(Roe().name), Roe().(memberId := id), res.ids, true);
    assert Run(st, States, [Roe()], [true]) == Run(s1, States, [], []) == s1;
    f := s1;
  }

  // ---- The worked example of a name match ----

  function JaneStored(): Entry {
    Entry("1001", "Jane Doe", 30, "Club", Ranking.Female, "63", 140, Some(3), None, States)
  }

  function JaneScraped(): Entry {
    Entry("9999", "jane doe", 30, "Club", Ranking.Female, "63", 150, None, None, States)
  }

  lemma JaneSameKey()
    ensures Normalize(JaneScraped().name) == Normalize(JaneStored().name)
  {
    NormalizeIgnoresCase("jane doe", "Jane Doe");
  }

  /** Jane Doe is stored as 1001 with session 3; a scrape lists "jane doe" as 9999 with a
      new total and no session. Row 1001 is updated with the new total and keeps session
      3, and no row 9999 appears. */
  lemma JaneDoeUpdated()
    ensures UpdateSupabase(map[RowKey("1001", States) := JaneStored()], [JaneScraped()],
                           Some([MeetRowOf(JaneStored())]), Some([RowKey("1001", States)]), [true]).Completed?
    ensures var f := UpdateSupabase(map[RowKey("1001", States) := JaneStored()], [JaneScraped()],
                                    Some([MeetRowOf(JaneStored())]), Some([RowKey("1001", States)]), [true]).final;
            && f.counts.updated == 1
            && RowKey("1001", States) in f.store
            && f.store[RowKey("1001", States)].entryTotal == 150
            && f.store[RowKey("1001", States)].sessionNumber == Some(3)
            && RowKey("9999", States) !in f.store
  {
    var f := JaneRun();
    assert f.store.Keys == {RowKey("1001", States)};
  }

  /** The meet query's one row is indexed under the scraped name's key */
  lemma JaneIndexed()
    ensures Normalize(JaneScraped().name) in IndexByName([MeetRowOf(JaneStored())])
    ensures IndexByName([MeetRowOf(JaneStored())])[Normalize(JaneScraped().name)] == SeenOf(MeetRowOf(JaneStored()))
  {
    var rows := [MeetRowOf(JaneStored())];
    assert IndexedAt(rows, IndexByName(rows), Normalize(JaneStored().name), 0) by {
      assert LastWithName(rows, 0);
    }
    JaneSameKey();
  }

  /** The Jane Doe run, computed: the one step updates row 1001 */
  lemma JaneRun() returns (f: RunState)
    ensures UpdateSupabase(map[RowKey("1001", States) := JaneStored()], [JaneScraped()],
                           Some([MeetRowOf(JaneStored())]), Some([RowKey("1001", States)]), [true]) == Completed(f)
    ensures f.counts.updated == 1 && f.store.Keys == {RowKey("1001", States)}
    ensures f.store[RowKey("1001", States)] == UpdatedRow(SeenOf(MeetRowOf(JaneStored())), JaneScraped())
  {
    var rows := [MeetRowOf(JaneStored())];
    JaneIndexed();
    SpaceLeftWhenSmall({"1001"});
    var st := InitialState(map[RowKey("1001", States) := JaneStored()], rows, Some([RowKey("1001", States)]));
    f := Step(st, States, JaneScraped(), true);
    ChangedMatchUpdates(st, States, JaneScraped());
    assert Run(st, States, [JaneScraped()], [true]) == Run(f, States, [], []) == f;
  }

  /** A matched entry whose stored row is present and differs, with the write accepted, is
      written over that row and counted as an update */
  lemma ChangedMatchUpdates(st: RunState, meet: string, e: Entry)
    requires IdSpaceLeft(st.ids) && e.meet == meet && Normalize(e.name) in st.byName
    requires HasChanges(st.byName[Normalize(e.name)], e)
    requires RowKey(st.byName[Normalize(e.name)].memberId, meet) in st.store
    ensures var ex := st.byName[Normalize(e.name)];
            var r := Step(st, meet, e, true);
            && r.counts.updated == st.counts.updated + 1
            && r.store.Keys == st.store.Keys
            && r.store[RowKey(ex.memberId, meet)] == UpdatedRow(ex, e)
  {
    var ex := st.byName[Normalize(e.name)];
    assert KeyOf(UpdatedRow(ex, e)) == RowKey(ex.memberId, meet);
  }
}

=== FILE: sorting.dfy ===
/** The sort applied to the scraped entries, modelled as a stable insertion sort under a
    ranking key. `Array.prototype.sort` is stable, and a stable sort by a total preorder
    has exactly one possible result (`SortedStableUnique`), so this sort computes what the
    scrapers' sort computes. */
module Sorting {
  import opened Ranking

  /** Every element may stand before every later one */
  predicate Sorted<T>(o: TotalOrder, key: T -> RankKey, s: seq<T>) {
    forall i, j :: 0 <= i < j < |s| ==> Le(o, key(s[i]), key(s[j]))
  }

  /** The elements of `s` whose key is `k`, in their order in `s` */
  function Filter<T>(key: T -> RankKey, k: RankKey, s: seq<T>): seq<T>
    decreases |s|
  {
    if |s| == 0 then [] else (if key(s[0]) == k then [s[0]] else []) + Filter(key, k, s[1..])
  }

  /** `r` keeps, for every key, the elements with that key in the order `s` has them */
  ghost predicate SameTies<T>(key: T -> RankKey, r: seq<T>, s: seq<T>) {
    forall k :: Filter(key, k, r) == Filter(key, k, s)
  }

  lemma {:induction false} FilterAppend<T>(key: T -> RankKey, k: RankKey, a: seq<T>, b: seq<T>)
    ensures Filter(key, k, a + b) == Filter(key, k, a) + Filter(key, k, b)
    decreases |a|
  {
    if |a| > 0 {
      assert (a + b)[1..] == a[1..] + b;
      FilterAppend(key, k, a[1..], b);
    } else {
      assert a + b == b;
    }
  }

  lemma {:induction false} FilterNone<T>(key: T -> RankKey, k: RankKey, s: seq<T>)
    requires forall j :: 0 <= j < |s| ==> key(s[j]) != k
    ensures Filter(key, k, s) == []
    decreases |s|
  {
    if |s| > 0 {
      FilterNone(key, k, s[1..]);
    }
  }

  lemma {:induction false} FilterWitness<T>(key: T -> RankKey, k: RankKey, s: seq<T>)
    requires Filter(key, k, s) != []
    ensures exists j :: 0 <= j < |s| && key(s[j]) == k
    decreases |s|
  {
    if key(s[0]) != k {
      FilterWitness(key, k, s[1..]);
      var j :| 0 <= j < |s[1..]| && key(s[1..][j]) == k;
      assert key(s[j + 1]) == k;
    }
  }

  /** Every element of `r` ranks at or after `b`, given that every element of the sequence
      `r` permutes (`rest` plus `x`) does */
  lemma LowerBound<T>(o: TotalOrder, key: T -> RankKey, b: RankKey, r: seq<T>, rest: seq<T>, x: T)
    requires multiset(r) == multiset(rest) + multiset{x}
    requires forall j :: 0 <= j < |rest| ==> Le(o, b, key(rest[j]))
    requires Le(o, b, key(x))
    ensures forall j :: 0 <= j < |r| ==> Le(o, b, key(r[j]))
  {
    forall j | 0 <= j < |r|
      ensures Le(o, b, key(r[j]))
    {
      assert r[j] in multiset(r);
      if r[j] != x {
        assert r[j] in multiset(rest);
        var i :| 0 <= i < |rest| && rest[i] == r[j];
      }
    }
  }

  /** Places `x` after every element of `s` it does not rank strictly before: the step of
      a stable insertion sort */
  function Insert<T>(o: TotalOrder, key: T -> RankKey, s: seq<T>, x: T): (r: seq<T>)
    ensures multiset(r) == multiset(s) + multiset{x}
    ensures Sorted(o, key, s) ==> Sorted(o, key, r)
    decreases |s|
  {
    if |s| == 0 then [x]
    else if Compare(o, key(x), key(s[0])) == Less then
      CompareTransitiveAll(o, key, key(x), s);
      [x] + s
    else
      var tail := Insert(o, key, s[1..], x);
      assert s == [s[0]] + s[1..];
      assert Sorted(o, key, s) ==> Sorted(o, key, [s[0]] + tail) by {
        if Sorted(o, key, s) {
          CompareAntisymmetric(o, key(x), key(s[0]));
          LowerBound(o, key, key(s[0]), tail, s[1..], x);
        }
      }
      [s[0]] + tail
  }

  /** In a sorted `s`, an element ranked before the head is ranked before everything */
  lemma CompareTransitiveAll<T>(o: TotalOrder, key: T -> RankKey, a: RankKey, s: seq<T>)
    requires |s| > 0 && Compare(o, a, key(s[0])) == Less
    ensures Sorted(o, key, s) ==> forall j :: 0 <= j < |s| ==> Compare(o, a, key(s[j])) == Less
  {
    if Sorted(o, key, s) {
      forall j | 0 <= j < |s|
        ensures Compare(o, a, key(s[j])) == Less
      {
        if j > 0 {
          CompareTransitive(o, a, key(s[0]), key(s[j]));
        }
      }
    }
  }

  /** Inserting into a sorted sequence puts `x` after every element with the same key */
  lemma {:induction false} InsertKeepsTies<T>(o: TotalOrder, key: T -> RankKey, s: seq<T>, x: T, k: RankKey)
    requires Sorted(o, key, s)
    ensures Filter(key, k, Insert(o, key, s, x)) == Filter(key, k, s) + (if key(x) == k then [x] else [])
    decreases |s|
  {
    if |s| == 0 {
      assert Insert(o, key, s, x) == [x];
      FilterSingle(key, k, x);
    } else if Compare(o, key(x), key(s[0])) == Less {
      InsertBeforeAll(o, key, s, x, k);
    } else {
      InsertPastHead(o, key, s, x);
      InsertKeepsTies(o, key, s[1..], x, k);
      TiesPastHead(o, key, s, x, k);
    }
  }

  /** The step of `InsertKeepsTies` when `x` goes past the head: the head's tie, if any,
      stays in front of what the recursive insert produced */
  lemma TiesPastHead<T>(o: TotalOrder, key: T -> RankKey, s: seq<T>, x: T, k: RankKey)
    requires |s| > 0 && Compare(o, key(x), key(s[0])) != Less && Sorted(o, key, s)
    requires Filter(key, k, Insert(o, key, s[1..], x)) == Filter(key, k, s[1..]) + (if key(x) == k then [x] else [])
    ensures Filter(key, k, Insert(o, key, s, x)) == Filter(key, k, s) + (if key(x) == k then [x] else [])
  {
    InsertPastHead(o, key, s, x);
    TiesBehindHead(key, k, s[0], Insert(o, key, s[1..], x), s[1..], if key(x) == k then [x] else []);
    assert [s[0]] + s[1..] == s;
  }

  lemma FilterSingle<T>(key: T -> RankKey, k: RankKey, x: T)
    ensures Filter(key, k, [x]) == if key(x) == k then [x] else []
  {
    assert Filter(key, k, [x]) == (if key(x) == k then [x] else []) + Filter(key, k, [x][1..]);
  }

  /** When `x` does not rank before the head, insertion keeps the head in front */
  lemma InsertPastHead<T>(o: TotalOrder, key: T -> RankKey, s: seq<T>, x: T)
    requires |s| > 0 && Compare(o, key(x), key(s[0])) != Less
    requires Sorted(o, key, s)
    ensures Insert(o, key, s, x) == [s[0]] + Insert(o, key, s[1..], x)
    ensures Sorted(o, key, s[1..])
  {
  }

  lemma TiesBehindHead<T>(key: T -> RankKey, k: RankKey, h: T, tail: seq<T>, rest: seq<T>, extra: seq<T>)
    requires Filter(key, k, tail) == Filter(key, k, rest) + extra
    ensures Filter(key, k, [h] + tail) == Filter(key, k, [h] + rest) + extra
  {
    FilterAppend(key, k, [h], tail);
    FilterAppend(key, k, [h], rest);
  }

  lemma InsertBeforeAll<T>(o: TotalOrder, key: T -> RankKey, s: seq<T>, x: T, k: RankKey)
    requires Sorted(o, key, s)
    requires |s| > 0 && Compare(o, key(x), key(s[0])) == Less
    ensures Filter(key, k, Insert(o, key, s, x)) == Filter(key, k, s) + (if key(x) == k then [x] else [])
  {
    assert Insert(o, key, s, x) == [x] + s;
    FilterAppend(key, k, [x], s);
    FilterSingle(key, k, x);
    if key(x) == k {
      CompareTransitiveAll(o, key, key(x), s);
      forall j | 0 <= j < |s| ensures key(s[j]) != k {
        CompareMeansRanking(o, key(x), key(s[j]));
      }
      FilterNone(key, k, s);
    }
  }

  /** The stable insertion sort, as a function: insert the elements one at a time */
  function SortBy<T>(o: TotalOrder, key: T -> RankKey, s: seq<T>): (r: seq<T>)
    ensures multiset(r) == multiset(s)
    ensures Sorted(o, key, r)
    decreases |s|
  {
    if |s| == 0 then []
    else
      assert s == s[..|s| - 1] + [s[|s| - 1]];
      Insert(o, key, SortBy(o, key, s[..|s| - 1]), s[|s| - 1])
  }

  /** The sort is stable: elements with equal keys keep their input order */
  lemma {:induction false} SortByStable<T>(o: TotalOrder, key: T -> RankKey, s: seq<T>)
    ensures SameTies(key, SortBy(o, key, s), s)
    decreases |s|
  {
    if |s| > 0 {
      SortByStable(o, key, s[..|s| - 1]);
      forall k
        ensures Filter(key, k, SortBy(o, key, s)) == Filter(key, k, s)
      {
        SortByStableAt(o, key, s, k);
      }
    }
  }

  lemma SortByStableAt<T>(o: TotalOrder, key: T -> RankKey, s: seq<T>, k: RankKey)
    requires |s| > 0
    requires SameTies(key, SortBy(o, key, s[..|s| - 1]), s[..|s| - 1])
    ensures Filter(key, k, SortBy(o, key, s)) == Filter(key, k, s)
  {
    var init, last := s[..|s| - 1], s[|s| - 1];
    var sortedInit := SortBy(o, key, init);
    SortByUnfold(o, key, s);
    InsertKeepsTies(o, key, sortedInit, last, k);
    assert Filter(key, k, sortedInit) == Filter(key, k, init);
    FilterLast(key, k, s);
  }

  lemma SortByUnfold<T>(o: TotalOrder, key: T -> RankKey, s: seq<T>)
    requires |s| > 0
    ensures SortBy(o, key, s) == Insert(o, key, SortBy(o, key, s[..|s| - 1]), s[|s| - 1])
  {
  }

  lemma FilterLast<T>(key: T -> RankKey, k: RankKey, s: seq<T>)
    requires |s| > 0
    ensures Filter(key, k, s) == Filter(key, k, s[..|s| - 1]) + (if key(s[|s| - 1]) == k then [s[|s| - 1]] else [])
  {
    assert s == s[..|s| - 1] + [s[|s| - 1]];
    FilterAppend(key, k, s[..|s| - 1], [s[|s| - 1]]);
    FilterSingle(key, k, s[|s| - 1]);
  }

  /** A sorted sequence with the same ties as another is determined by it: every stable
      sort returns what `SortBy` returns */
  lemma {:induction false} SortedStableUnique<T>(o: TotalOrder, key: T -> RankKey, r1: seq<T>, r2: seq<T>)
    requires Sorted(o, key, r1) && Sorted(o, key, r2)
    requires SameTies(key, r1, r2)
    ensures r1 == r2
    decreases |r1|
  {
    if |r1| == 0 && |r2| == 0 {
      return;
    }
    if |r1| == 0 || |r2| == 0 {
      var s, t := if |r1| == 0 then r2 else r1, if |r1| == 0 then r1 else r2;
      assert Filter(key, key(s[0]), s) != [];
      assert false;
    }
    var k1, k2 := key(r1[0]), key(r2[0]);
    assert Filter(key, k1, r1) != [];
    FilterWitness(key, k1, r2);
    assert Le(o, k2, k1);
    assert Filter(key, k2, r2) != [];
    FilterWitness(key, k2, r1);
    assert Le(o, k1, k2);
    LeTotalOrder(o, k1, k2, k1);
    assert Filter(key, k1, r1)[0] == r1[0];
    assert Filter(key, k1, r2)[0] == r2[0];
    assert r1[0] == r2[0];
    forall k
      ensures Filter(key, k, r1[1..]) == Filter(key, k, r2[1..])
    {
      var head := if key(r1[0]) == k then [r1[0]] else [];
      assert Filter(key, k, r1) == head + Filter(key, k, r1[1..]);
      assert Filter(key, k, r2) == head + Filter(key, k, r2[1..]);
      assert Filter(key, k, r1) == Filter(key, k, r2);
      assert Filter(key, k, r1[1..]) == Filter(key, k, r1)[|head|..];
      assert Filter(key, k, r2[1..]) == Filter(key, k, r2)[|head|..];
    }
    SortedStableUnique(o, key, r1[1..], r2[1..]);
    assert r1 == [r1[0]] + r1[1..] && r2 == [r2[0]] + r2[1..];
  }

  /** Sortedness follows from checking neighbours only */
  lemma {:induction false} SortedFromNeighbours<T>(o: TotalOrder, key: T -> RankKey, s: seq<T>)
    requires forall i :: 0 <= i < |s| - 1 ==> Le(o, key(s[i]), key(s[i + 1]))
    ensures Sorted(o, key, s)
    decreases |s|
  {
    if |s| > 1 {
      SortedFromNeighbours(o, key, s[1..]);
      forall j | 1 <= j < |s|
        ensures Le(o, key(s[0]), key(s[j]))
      {
        if j > 1 {
          assert Le(o, key(s[1]), key(s[j])) by {
            assert s[1..][0] == s[1] && s[1..][j - 1] == s[j];
          }
          CompareTransitive(o, key(s[0]), key(s[1]), key(s[j]));
        }
      }
      forall i, j | 0 <= i < j < |s|
        ensures Le(o, key(s[i]), key(s[j]))
      {
        if i > 0 {
          assert s[1..][i - 1] == s[i] && s[1..][j - 1] == s[j];
        }
      }
    }
  }

  /** A sequence that is already sorted is what the sort returns for it */
  lemma SortFixesSorted<T>(o: TotalOrder, key: T -> RankKey, s: seq<T>)
    requires Sorted(o, key, s)
    ensures SortBy(o, key, s) == s
  {
    SortByStable(o, key, s);
    SortedStableUnique(o, key, SortBy(o, key, s), s);
  }

  /** The sort as a loop over the input, as `Array.prototype.sort` is called: the result is
      a sorted, stable permutation of the input */
  method InsertionSort<T>(o: TotalOrder, key: T -> RankKey, xs: seq<T>) returns (r: seq<T>)
    ensures Sorted(o, key, r)
    ensures multiset(r) == multiset(xs)
    ensures SameTies(key, r, xs)
  {
    r := [];
    var i := 0;
    while i < |xs|
      invariant 0 <= i <= |xs|
      invariant r == SortBy(o, key, xs[..i])
    {
      assert xs[..i + 1][..i] == xs[..i];
      r := Insert(o, key, r, xs[i]);
      i := i + 1;
    }
    assert xs[..i] == xs;
    SortByStable(o, key, xs);
  }
}

=== FILE: text.dfy ===
/** The name normalisation the reconciliation matches athletes by:
    `name.toLowerCase().trim()`. */
module Text {

  predicate IsUpper(c: char) {
    'A' <= c <= 'Z'
  }

  /** `toLowerCase` on one character; only the ASCII letters are folded */
  function LowerChar(c: char): char {
    if IsUpper(c) then (c as int + 32) as char else c
  }

  /** `String.prototype.toLowerCase`, restricted to ASCII letters */
  function ToLower(s: string): (r: string)
    ensures |r| == |s|
    ensures forall i :: 0 <= i < |s| ==> r[i] == LowerChar(s[i])
  {
    seq(|s|, i requires 0 <= i < |s| => LowerChar(s[i]))
  }

  /** The characters `String.prototype.trim` strips: the ECMAScript WhiteSpace and
      LineTerminator code points */
  predicate IsSpace(c: char) {
    c == ' ' || c == '\t' || c == '\n' || c == '\r' || c == '\U{000B}' || c == '\U{000C}'
    || c == '\U{00A0}' || c == '\U{1680}' || ('\U{2000}' <= c <= '\U{200A}')
    || c == '\U{2028}' || c == '\U{2029}' || c == '\U{202F}' || c == '\U{205F}'
    || c == '\U{3000}' || c == '\U{FEFF}'
  }

  predicate AllSpace(s: string) {
    forall i :: 0 <= i < |s| ==> IsSpace(s[i])
  }

  /** `s` begins and ends with a character `trim` keeps */
  predicate Trimmed(s: string) {
    |s| == 0 || (!IsSpace(s[0]) && !IsSpace(s[|s| - 1]))
  }

  /** Drops the leading white space */
  function TrimStart(s: string): string
    decreases |s|
  {
    if |s| > 0 && IsSpace(s[0]) then TrimStart(s[1..]) else s
  }

  /** Drops the trailing white space */
  function TrimEnd(s: string): string
    decreases |s|
  {
    if |s| > 0 && IsSpace(s[|s| - 1]) then TrimEnd(s[..|s| - 1]) else s
  }

  /** `TrimStart` keeps the suffix that starts at the first character `trim` keeps */
  lemma {:induction false} TrimStartShape(s: string)
    ensures |TrimStart(s)| <= |s| && TrimStart(s) == s[|s| - |TrimStart(s)|..]
    ensures AllSpace(s[..|s| - |TrimStart(s)|])
    ensures |TrimStart(s)| == 0 || !IsSpace(TrimStart(s)[0])
    decreases |s|
  {
    if |s| > 0 && IsSpace(s[0]) {
      TrimStartShape(s[1..]);
      var k := |s| - |TrimStart(s)|;
      assert s[..k] == [s[0]] + s[1..][..k - 1];
    }
  }

  /** `TrimEnd` keeps the prefix that ends at the last character `trim` keeps */
  lemma {:induction false} TrimEndShape(s: string)
    ensures |TrimEnd(s)| <= |s| && TrimEnd(s) == s[..|TrimEnd(s)|]
    ensures AllSpace(s[|TrimEnd(s)|..])
    ensures |TrimEnd(s)| == 0 || !IsSpace(TrimEnd(s)[|TrimEnd(s)| - 1])
    decreases |s|
  {
    if |s| > 0 && IsSpace(s[|s| - 1]) {
      TrimEndShape(s[..|s| - 1]);
      var k := |TrimEnd(s)|;
      assert s[k..] == s[..|s| - 1][k..] + [s[|s| - 1]];
    }
  }

  /** `r` is `s` cut between two white-space margins */
  ghost predicate CutOf(r: string, s: string) {
    exists i, j :: 0 <= i <= j <= |s| && r == s[i..j] && AllSpace(s[..i]) && AllSpace(s[j..])
  }

  /** `String.prototype.trim`: the slice of `s` between white-space margins that starts
      and ends with a kept character */
  function Trim(s: string): (r: string)
    ensures Trimmed(r) && CutOf(r, s)
  {
    TrimIsInfix(s);
    TrimEnd(TrimStart(s))
  }

  /** The key athletes are matched by within a meet: the lower-cased name cut between two
      white-space margins, so no white space at either end and no upper-case ASCII letter */
  function Normalize(name: string): (r: string)
    ensures Trimmed(r) && |r| <= |name|
    ensures forall i :: 0 <= i < |r| ==> !IsUpper(r[i])
    ensures CutOf(r, ToLower(name))
  {
    var r := Trim(ToLower(name));
    assert forall i :: 0 <= i < |r| ==> !IsUpper(r[i]) by {
      var i, j :| 0 <= i <= j <= |name| && r == ToLower(name)[i..j];
    }
    r
  }

  /** What `trim` keeps is a contiguous piece of its input, cut between two white-space
      margins and starting and ending with a kept character */
  lemma TrimIsInfix(s: string)
    ensures Trimmed(TrimEnd(TrimStart(s)))
    ensures exists i, j :: 0 <= i <= j <= |s| && TrimEnd(TrimStart(s)) == s[i..j]
                           && AllSpace(s[..i]) && AllSpace(s[j..])
  {
    TrimStartShape(s);
    TrimEndKeepsHead(TrimStart(s));
    var i, j := TrimCut(s);
    TrailingMargin(s, i, j);
  }

  /** Where `trim` cuts: after the leading white space and `|TrimEnd(..)|` further on */
  lemma TrimCut(s: string) returns (i: nat, j: nat)
    ensures i == |s| - |TrimStart(s)| && j == i + |TrimEnd(TrimStart(s))| && j <= |s|
    ensures TrimEnd(TrimStart(s)) == s[i..j] && AllSpace(s[..i])
  {
    var t := TrimStart(s);
    TrimStartShape(s);
    TrimEndShape(t);
    i, j := |s| - |t|, |s| - |t| + |TrimEnd(t)|;
    SliceOfSuffix(s, i, |TrimEnd(t)|);
  }

  /** What follows the cut is the white space `TrimEnd` dropped */
  lemma TrailingMargin(s: string, i: nat, j: nat)
    requires i == |s| - |TrimStart(s)| && j == i + |TrimEnd(TrimStart(s))| && j <= |s|
    ensures AllSpace(s[j..])
  {
    var t := TrimStart(s);
    TrimStartShape(s);
    TrimEndShape(t);
    SliceOfSuffix(s, i, |TrimEnd(t)|);
    assert s[j..] == t[|TrimEnd(t)|..];
  }

  /** Slicing a suffix of `s` is slicing `s` */
  lemma SliceOfSuffix(s: string, i: nat, m: nat)
    requires i + m <= |s|
    ensures s[i..][..m] == s[i..i + m]
    ensures s[i..][m..] == s[i + m..]
  {
  }

  /** `TrimEnd` keeps the first character of a string that does not start with white space */
  lemma TrimEndKeepsHead(t: string)
    requires |t| == 0 || !IsSpace(t[0])
    ensures Trimmed(TrimEnd(t))
  {
    TrimEndShape(t);
    if |TrimEnd(t)| > 0 {
      assert TrimEnd(t)[0] == t[0];
    }
  }

  /** Trimming a string that is already trimmed changes nothing */
  lemma TrimTrimmed(s: string)
    requires Trimmed(s)
    ensures Trim(s) == s
  {
    if |s| > 0 {
      assert TrimStart(s) == s;
      assert TrimEnd(s) == s;
    }
  }

  /** White space around a name does not change its key */
  lemma NormalizeIgnoresPadding(pre: string, s: string, post: string)
    requires AllSpace(pre) && AllSpace(post)
    ensures Normalize(pre + s + post) == Normalize(s)
  {
    var lp, ls, lq := ToLower(pre), ToLower(s), ToLower(post);
    assert AllSpace(lp) && AllSpace(lq);
    assert ToLower(pre + s + post) == lp + (ls + lq);
    TrimStartSkipsSpace(lp, ls + lq);
    TrimStartAppend(ls, lq);
    if |TrimStart(ls)| > 0 {
      TrimEndSkipsSpace(TrimStart(ls), lq);
    } else {
      TrimStartOfSpace(lq);
    }
  }

  lemma {:induction false} TrimStartSkipsSpace(w: string, s: string)
    requires AllSpace(w)
    ensures TrimStart(w + s) == TrimStart(s)
    decreases |w|
  {
    if |w| == 0 {
      assert w + s == s;
    } else {
      assert IsSpace((w + s)[0]);
      assert (w + s)[1..] == w[1..] + s;
      TrimStartSkipsSpace(w[1..], s);
    }
  }

  lemma {:induction false} TrimEndSkipsSpace(s: string, w: string)
    requires AllSpace(w)
    ensures TrimEnd(s + w) == TrimEnd(s)
    decreases |w|
  {
    if |w| == 0 {
      assert s + w == s;
    } else {
      assert IsSpace((s + w)[|s + w| - 1]);
      assert (s + w)[..|s + w| - 1] == s + w[..|w| - 1];
      TrimEndSkipsSpace(s, w[..|w| - 1]);
    }
  }

  lemma {:induction false} TrimStartOfSpace(s: string)
    requires AllSpace(s)
    ensures TrimStart(s) == []
    decreases |s|
  {
    if |s| > 0 {
      TrimStartOfSpace(s[1..]);
    }
  }

  /** When the text of `s` does not trim away to nothing, appending to it does not change
      where the leading white space ends */
  lemma {:induction false} TrimStartAppend(s: string, t: string)
    ensures |TrimStart(s)| > 0 ==> TrimStart(s + t) == TrimStart(s) + t
    ensures |TrimStart(s)| == 0 ==> TrimStart(s + t) == TrimStart(t)
    decreases |s|
  {
    if |s| > 0 && IsSpace(s[0]) {
      assert (s + t)[1..] == s[1..] + t;
      TrimStartAppend(s[1..], t);
    } else if |s| == 0 {
      assert s + t == t;
    }
  }

  /** Normalising twice is normalising once */
  lemma NormalizeIdempotent(name: string)
    ensures Normalize(Normalize(name)) == Normalize(name)
  {
    var r := Normalize(name);
    assert ToLower(r) == r;
    TrimTrimmed(r);
  }

  /** Names that differ only in ASCII letter case get the same key */
  lemma NormalizeIgnoresCase(a: string, b: string)
    requires |a| == |b|
    requires forall i :: 0 <= i < |a| ==> LowerChar(a[i]) == LowerChar(b[i])
    ensures Normalize(a) == Normalize(b)
  {
    assert ToLower(a) == ToLower(b);
  }
}

=== FILE: variants.dfy ===
/** The four scrapers' comparators as instances of the one ranking key.
    - csv_scraper.js and scrape_from_site.js sort extracted entries by gender, weight
      class and descending total;
    - mnats25/scraper.js sorts the same way after appending "kg" to the weight class and
      parsing the total;
    - arnold_25/scraper/ao1_adaptive_scraper.js reads the gender from a "Female"/"Male"
      prefix of its combined category and sorts totals ascending. */
module Variants {
  import opened Wrappers
  import opened Decimal
  import opened Weight
  import opened Ranking
  import opened Sorting
  import opened Athletes

  // ---- csv_scraper.js and scrape_from_site.js ----

  /** What their comparator reads from an extracted entry */
  function ScrapedKey(e: Entry): RankKey {
    RankKey(e.gender, GetWeight(e.weightClass), e.entryTotal)
  }

  /** The comparator of csv_scraper.js and scrape_from_site.js, field by field: a Female entry first, then
      the lower numeral (a class without digits last), then non-plus before plus, then the
      higher total */
  lemma ScrapedOrder(a: Entry, b: Entry)
    ensures Compare(Descending, ScrapedKey(a), ScrapedKey(b)) == Less <==>
      var wa, wb := GetWeight(a.weightClass), GetWeight(b.weightClass);
      || (a.gender == Female && b.gender == Male)
      || (a.gender == b.gender && NumeralBefore(wa.numeral, wb.numeral))
      || (a.gender == b.gender && wa.numeral == wb.numeral && !wa.plus && wb.plus)
      || (a.gender == b.gender && wa == wb && a.entryTotal > b.entryTotal)
  {
    CompareMeansRanking(Descending, ScrapedKey(a), ScrapedKey(b));
  }

  /** `allEntries.sort(...)` in csv_scraper.js and scrape_from_site.js: a sorted, stable
      permutation */
  method SortRoster(entries: seq<Entry>) returns (sorted: seq<Entry>)
    ensures Sorted(Descending, ScrapedKey, sorted)
    ensures multiset(sorted) == multiset(entries)
    ensures SameTies(ScrapedKey, sorted, entries)
  {
    sorted := InsertionSort(Descending, ScrapedKey, entries);
  }

  function ExampleEntry(gender: Gender, weightClass: string, total: int): Entry {
    Entry("", "", 0, "", gender, weightClass, total, None, None, "")
  }

  /** The comparator of scrape_from_site.js on a worked example: an 87
      and a +87 Female and a 55 Male are already in order, so sorting keeps them */
  lemma SiteExampleOrder()
    ensures var s := [ExampleEntry(Female, "87", 100), ExampleEntry(Female, "+87", 90), ExampleEntry(Male, "55", 120)];
      Sorted(Descending, ScrapedKey, s) && SortBy(Descending, ScrapedKey, s) == s
  {
    var s := [ExampleEntry(Female, "87", 100), ExampleEntry(Female, "+87", 90), ExampleEntry(Male, "55", 120)];
    Readings();
    assert "55"[..1] == "5";
    assert GetWeight("55") == WeightKey(Some(55), false);
    SortedFromNeighbours(Descending, ScrapedKey, s);
    SortFixesSorted(Descending, ScrapedKey, s);
  }

  /** On a class without digits the comparator puts the entry after every numbered class
      of the same gender, whatever the totals */
  lemma UnnumberedClassLast(a: Entry, b: Entry)
    requires a.gender == b.gender && DigitFree(a.weightClass) && !DigitFree(b.weightClass)
    ensures Compare(Descending, ScrapedKey(b), ScrapedKey(a)) == Less
  {
  }

  // ---- mnats25/scraper.js ----

  /** An entry as that scraper evaluates it back from its string form */
  datatype StringRow = StringRow(memberId: string, name: string, club: string, gender: Gender,
                                 weightClass: string, entryTotal: int)

  /** The row it builds from the table cells: the weight class gets "kg" appended */
  function StringRowOf(e: Entry): StringRow {
    StringRow(e.memberId, e.name, e.club, e.gender, e.weightClass + "kg", e.entryTotal)
  }

  function StringRowKey(r: StringRow): RankKey {
    RankKey(r.gender, GetWeight(r.weightClass), r.entryTotal)
  }

  /** Appending "kg" does not change the ranking: mnats25/scraper.js orders any two rows as
      csv_scraper.js orders the entries they came from */
  lemma StringRowsRankAsEntries(a: Entry, b: Entry)
    ensures StringRowKey(StringRowOf(a)) == ScrapedKey(a)
    ensures Compare(Descending, StringRowKey(StringRowOf(a)), StringRowKey(StringRowOf(b)))
         == Compare(Descending, ScrapedKey(a), ScrapedKey(b))
  {
    DigitFreeSuffix(a.weightClass, "kg");
    DigitFreeSuffix(b.weightClass, "kg");
  }

  // ---- arnold_25/scraper/ao1_adaptive_scraper.js ----

  /** An entry of the adaptive-event output: the category joins gender and class */
  datatype AdaptiveRow = AdaptiveRow(name: string, club: string, weightCategory: string, entryTotal: int)

  predicate StartsWith(s: string, prefix: string) {
    |prefix| <= |s| && s[..|prefix|] == prefix
  }

  /** That scraper's key: Female iff the category starts with "Female", totals ascending */
  function AdaptiveKey(r: AdaptiveRow): (k: RankKey)
    ensures k.gender == Female <==> StartsWith(r.weightCategory, "Female")
    ensures k.weight.numeral.None? <==> DigitFree(r.weightCategory)
    ensures k.total == r.entryTotal
  {
    RankKey(if StartsWith(r.weightCategory, "Female") then Female else Male,
            GetWeight(r.weightCategory), r.entryTotal)
  }

  /** Its gender test: a "Female" category first, and any two others tie on gender */
  lemma AdaptiveGenderByPrefix(a: AdaptiveRow, b: AdaptiveRow)
    ensures StartsWith(a.weightCategory, "Female") && !StartsWith(b.weightCategory, "Female")
      ==> Compare(Ascending, AdaptiveKey(a), AdaptiveKey(b)) == Less
    ensures !StartsWith(a.weightCategory, "Female") && !StartsWith(b.weightCategory, "Female")
      ==> AdaptiveKey(a).gender == AdaptiveKey(b).gender
  {
  }

  /** The category `${gender} ${weightClass}kg` reads like the bare class */
  lemma AdaptiveCategoryReading(gender: string, weightClass: string)
    requires DigitFree(gender)
    ensures GetWeight(gender + " " + weightClass + "kg") == GetWeight(weightClass)
  {
    DigitFreeSuffix(gender + " " + weightClass, "kg");
    assert gender + " " + weightClass + "kg" == (gender + " " + weightClass) + "kg";
    assert gender + " " + weightClass == (gender + " ") + weightClass;
    DigitFreePrefix(gender + " ", weightClass);
  }

  /** At equal bracket this scraper puts the lower total first, the opposite of the others */
  lemma AdaptiveTotalsAscending(a: AdaptiveRow, b: AdaptiveRow)
    requires AdaptiveKey(a).gender == AdaptiveKey(b).gender
    requires GetWeight(a.weightCategory) == GetWeight(b.weightCategory)
    ensures Compare(Ascending, AdaptiveKey(a), AdaptiveKey(b)) == Less <==> a.entryTotal < b.entryTotal
    ensures Compare(Descending, AdaptiveKey(a), AdaptiveKey(b)) == Less <==> a.entryTotal > b.entryTotal
  {
  }

  /** A category of the form the scraper writes, `${gender} ${weightClass}kg`, ranks by
      the gender and the bare class */
  lemma AdaptiveRowKey(g: Gender, weightClass: string, name: string, club: string, total: int)
    ensures AdaptiveKey(AdaptiveRow(name, club, GenderText(g) + " " + weightClass + "kg", total))
         == RankKey(g, GetWeight(weightClass), total)
  {
    var c := GenderText(g) + " " + weightClass + "kg";
    AdaptiveCategoryReading(GenderText(g), weightClass);
    if g == Male {
      assert c[0] == 'M';
    } else {
      assert c[..6] == "Female";
    }
  }

  /** The committed output of ao1_adaptive_scraper.js, one constant per line, totals
      parsed */
  const Committed0: AdaptiveRow := AdaptiveRow("Samantha Love", "Bexar Barbell", "Female 64kg", 141)
  const Committed1: AdaptiveRow := AdaptiveRow("Ashley Collazo", "Maxx Effort Training", "Female 87kg", 122)
  const Committed2: AdaptiveRow := AdaptiveRow("Helen Filosa", "Anna Banana Barbell Club", "Female +87kg", 135)
  const Committed3: AdaptiveRow := AdaptiveRow("Angel Santiago", "Maxx Effort Training", "Male 55kg", 38)
  const Committed4: AdaptiveRow := AdaptiveRow("Thomas Osborne", "Bexar Barbell", "Male 81kg", 250)
  const Committed5: AdaptiveRow := AdaptiveRow("Justus Foster", "Moran Academy", "Male 89kg", 160)
  const Committed6: AdaptiveRow := AdaptiveRow("Thomas Smalley", "Bexar Barbell", "Male 89kg", 218)
  const Committed7: AdaptiveRow := AdaptiveRow("Jack Halstead", "Bexar Barbell", "Male 96kg", 188)
  const Committed8: AdaptiveRow := AdaptiveRow("Eric Hale", "Bexar Barbell", "Male 109kg", 255)

  const AdaptiveEntries: seq<AdaptiveRow> :=
    [Committed0, Committed1, Committed2, Committed3, Committed4, Committed5, Committed6, Committed7, Committed8]

  /** Row `i` of the committed list ranks by gender `g`, class `w` and its total */
  lemma AdaptiveEntryKey(i: nat, g: Gender, w: string, value: nat, plus: bool)
    requires i < |AdaptiveEntries|
    requires AdaptiveEntries[i].weightCategory == GenderText(g) + " " + w + "kg"
    requires GetWeight(w) == WeightKey(Some(value), plus)
    ensures AdaptiveKey(AdaptiveEntries[i]) == RankKey(g, WeightKey(Some(value), plus), AdaptiveEntries[i].entryTotal)
  {
    var r := AdaptiveEntries[i];
    AdaptiveRowKey(g, w, r.name, r.club, r.entryTotal);
  }

  lemma Numeral2(w: string, tens: nat, ones: nat)
    requires tens < 10 && ones < 10 && w == [DigitChar(tens), DigitChar(ones)]
    ensures GetWeight(w) == WeightKey(Some(10 * tens + ones), false)
  {
    assert w[..1] == [DigitChar(tens)];
    assert [DigitChar(tens)][..0] == [];
    assert DigitValue(DigitChar(tens)) == tens && DigitValue(DigitChar(ones)) == ones;
    assert DigitsValue(w[..1]) == tens;
    NumeralReading(w);
  }

  /** The keys the comparator reads from the committed list, row by row */
  const AdaptiveKeys: seq<RankKey> := [
    RankKey(Female, WeightKey(Some(64), false), 141),
    RankKey(Female, WeightKey(Some(87), false), 122),
    RankKey(Female, WeightKey(Some(87), true), 135),
    RankKey(Male, WeightKey(Some(55), false), 38),
    RankKey(Male, WeightKey(Some(81), false), 250),
    RankKey(Male, WeightKey(Some(89), false), 160),
    RankKey(Male, WeightKey(Some(89), false), 218),
    RankKey(Male, WeightKey(Some(96), false), 188),
    RankKey(Male, WeightKey(Some(109), false), 255)
  ]

  lemma AdaptiveEntryKeyAt(i: nat)
    requires i < |AdaptiveEntries|
    ensures AdaptiveKey(AdaptiveEntries[i]) == AdaptiveKeys[i]
  {
    if i < 3 {
      FemaleEntryKeyAt(i);
    } else if i < 6 {
      MaleEntryKeyAt(i);
    } else {
      HeavyEntryKeyAt(i);
    }
  }

  lemma FemaleEntryKeyAt(i: nat)
    requires i < 3
    ensures AdaptiveKey(AdaptiveEntries[i]) == AdaptiveKeys[i]
  {
    if i == 0 {
      Numeral2("64", 6, 4);
      AdaptiveEntryKey(0, Female, "64", 64, false);
    } else if i == 1 {
      Numeral2("87", 8, 7);
      AdaptiveEntryKey(1, Female, "87", 87, false);
    } else {
      PlusNumeralReading("87");
      AdaptiveEntryKey(2, Female, "+87", 87, true);
    }
  }

  lemma MaleEntryKeyAt(i: nat)
    requires 3 <= i < 6
    ensures AdaptiveKey(AdaptiveEntries[i]) == AdaptiveKeys[i]
  {
    if i == 3 {
      Numeral2("55", 5, 5);
      AdaptiveEntryKey(3, Male, "55", 55, false);
    } else if i == 4 {
      Numeral2("81", 8, 1);
      AdaptiveEntryKey(4, Male, "81", 81, false);
    } else {
      Numeral2("89", 8, 9);
      AdaptiveEntryKey(5, Male, "89", 89, false);
    }
  }

  lemma HeavyEntryKeyAt(i: nat)
    requires 6 <= i < 9
    ensures AdaptiveKey(AdaptiveEntries[i]) == AdaptiveKeys[i]
  {
    if i == 6 {
      Numeral2("89", 8, 9);
      AdaptiveEntryKey(6, Male, "89", 89, false);
    } else if i == 7 {
      Numeral2("96", 9, 6);
      AdaptiveEntryKey(7, Male, "96", 96, false);
    } else {
      Numeral109();
      AdaptiveEntryKey(8, Male, "109", 109, false);
    }
  }

  lemma Numeral109()
    ensures GetWeight("109") == WeightKey(Some(109), false)
  {
    assert "109"[..2] == "10" && "10"[..1] == "1" && "1"[..0] == "";
    NumeralReading("109");
  }

  lemma AdaptiveKeysInOrder(i: nat)
    requires i < |AdaptiveKeys| - 1
    ensures Le(Ascending, AdaptiveKeys[i], AdaptiveKeys[i + 1])
  {
  }

  /** The committed list is in the order its comparator defines (an 87 class before +87,
      the lower of two 89 totals first), and re-sorting it changes nothing */
  lemma AdaptiveEntriesSorted()
    ensures Sorted(Ascending, AdaptiveKey, AdaptiveEntries)
    ensures SortBy(Ascending, AdaptiveKey, AdaptiveEntries) == AdaptiveEntries
  {
    forall i | 0 <= i < |AdaptiveEntries| - 1
      ensures Le(Ascending, AdaptiveKey(AdaptiveEntries[i]), AdaptiveKey(AdaptiveEntries[i + 1]))
    {
      AdaptiveEntryKeyAt(i);
      AdaptiveEntryKeyAt(i + 1);
      AdaptiveKeysInOrder(i);
    }
    SortedFromNeighbours(Ascending, AdaptiveKey, AdaptiveEntries);
    SortFixesSorted(Ascending, AdaptiveKey, AdaptiveEntries);
  }
}

=== FILE: weight.dfy ===
/** `getWeight`, the weight-class reader shared by every ranking comparator: the regular
    expression `(\+)?(\d+)` applied with `String.prototype.match`, whose first match gives
    the bracket numeral (`parseInt` of the digits) and the plus flag. */
module Weight {
  import opened Wrappers
  import opened Decimal

  /** A weight class as the comparators read it. `numeral == None` stands for the
      JavaScript `Infinity` the source returns when the class holds no digit. */
  datatype WeightKey = WeightKey(numeral: Option<nat>, plus: bool)

  /** Index of the first digit of `s` at or after `i`, or `|s|` when there is none */
  function FirstDigitFrom(s: string, i: nat): (j: nat)
    requires i <= |s|
    ensures i <= j <= |s|
    ensures forall k :: i <= k < j ==> !IsDigit(s[k])
    ensures j < |s| ==> IsDigit(s[j])
    decreases |s| - i
  {
    if i == |s| || IsDigit(s[i]) then i else FirstDigitFrom(s, i + 1)
  }

  /** End of the run of digits that starts at `j` */
  function DigitRunEnd(s: string, j: nat): (e: nat)
    requires j <= |s|
    ensures j <= e <= |s|
    ensures forall k :: j <= k < e ==> IsDigit(s[k])
    ensures e == |s| || !IsDigit(s[e])
    decreases |s| - j
  {
    if j < |s| && IsDigit(s[j]) then DigitRunEnd(s, j + 1) else j
  }

  /** The first run of digits is the numeral; the flag is set iff a '+' immediately
      precedes it; a class without digits reads as (Infinity, no plus) */
  function GetWeight(s: string): (w: WeightKey)
    ensures w.numeral.None? <==> DigitFree(s)
    ensures w.numeral.None? ==> !w.plus
  {
    var j := FirstDigitFrom(s, 0);
    if j == |s| then WeightKey(None, false)
    else
      var e := DigitRunEnd(s, j);
      WeightKey(Some(DigitsValue(s[j..e])), j > 0 && s[j - 1] == '+')
  }

  // ---- The regular expression, stated independently of the scan above ----

  /** Some match of `(\+)?(\d+)` can begin at index `i` */
  predicate CanMatchAt(s: string, i: int)
    requires 0 <= i < |s|
  {
    IsDigit(s[i]) || (s[i] == '+' && i + 1 < |s| && IsDigit(s[i + 1]))
  }

  /** `s[i..e]` is the match the engine reports when it starts at `i`: the optional group
      is greedy (it takes a '+' whenever digits follow), `\d+` is greedy, and `plus`
      says whether group 1 took part */
  predicate GreedyMatch(s: string, i: nat, plus: bool, e: nat) {
    var d := if plus then i + 1 else i;
    && d < e <= |s|
    && (plus ==> s[i] == '+')
    && (forall k :: d <= k < e ==> IsDigit(s[k]))
    && (e == |s| || !IsDigit(s[e]))
  }

  /** ... and it is the leftmost one, the one `String.prototype.match` returns */
  predicate LeftmostMatch(s: string, i: nat, plus: bool, e: nat) {
    && GreedyMatch(s, i, plus, e)
    && (forall k :: 0 <= k < i ==> !CanMatchAt(s, k))
  }

  /** `GetWeight` reads exactly what the regular expression matches: no match iff the
      numeral is absent, and otherwise the leftmost greedy match supplies the plus flag and
      the digits the numeral is parsed from */
  lemma GetWeightFollowsRegex(s: string)
    ensures GetWeight(s).numeral.None? <==> forall k :: 0 <= k < |s| ==> !CanMatchAt(s, k)
    ensures GetWeight(s).numeral.Some? ==>
      exists i: nat, e: nat :: LeftmostMatch(s, i, GetWeight(s).plus, e)
        && var d := if GetWeight(s).plus then i + 1 else i;
           AllDigits(s[d..e]) && GetWeight(s).numeral.value == DigitsValue(s[d..e])
  {
    var j := FirstDigitFrom(s, 0);
    if j == |s| {
      assert forall k :: 0 <= k < |s| ==> !CanMatchAt(s, k) by {
        forall k | 0 <= k < |s| ensures !CanMatchAt(s, k) {
          assert !IsDigit(s[k]);
          if k + 1 < |s| { assert !IsDigit(s[k + 1]); }
        }
      }
    } else {
      var e := DigitRunEnd(s, j);
      var plus := j > 0 && s[j - 1] == '+';
      var i := if plus then j - 1 else j;
      assert CanMatchAt(s, i);
      assert forall k :: 0 <= k < i ==> !CanMatchAt(s, k) by {
        forall k | 0 <= k < i ensures !CanMatchAt(s, k) {
          assert !IsDigit(s[k]);
          if k + 1 < j {
            assert !IsDigit(s[k + 1]);
          } else {
            assert s[k] != '+';
          }
        }
      }
      assert LeftmostMatch(s, i, plus, e);
    }
  }

  // ---- What surrounds the class in the scraped strings does not change its key ----

  lemma {:induction false} FirstDigitInPrefix(s: string, t: string, i: nat)
    requires i <= |s|
    ensures FirstDigitFrom(s, i) < |s| ==> FirstDigitFrom(s + t, i) == FirstDigitFrom(s, i)
    ensures FirstDigitFrom(s, i) == |s| ==> FirstDigitFrom(s + t, i) == |s| + FirstDigitFrom(t, 0)
    decreases |s| - i
  {
    if i == |s| {
      FirstDigitShift(s, t, 0);
    } else if !IsDigit(s[i]) {
      FirstDigitInPrefix(s, t, i + 1);
    }
  }

  lemma {:induction false} FirstDigitShift(s: string, t: string, i: nat)
    requires i <= |t|
    ensures FirstDigitFrom(s + t, |s| + i) == |s| + FirstDigitFrom(t, i)
    decreases |t| - i
  {
    if i < |t| && !IsDigit(t[i]) {
      FirstDigitShift(s, t, i + 1);
    }
  }

  lemma {:induction false} DigitRunInPrefix(s: string, t: string, j: nat)
    requires j <= |s|
    requires |t| == 0 || !IsDigit(t[0])
    ensures DigitRunEnd(s + t, j) == DigitRunEnd(s, j)
    decreases |s| - j
  {
    if j < |s| && IsDigit(s[j]) {
      DigitRunInPrefix(s, t, j + 1);
    }
  }

  /** A suffix without digits, such as the "kg" mnats25/scraper.js appends,
      leaves numeral and flag unchanged */
  lemma DigitFreeSuffix(s: string, t: string)
    requires DigitFree(t)
    ensures GetWeight(s + t) == GetWeight(s)
  {
    FirstDigitInPrefix(s, t, 0);
    var j := FirstDigitFrom(s, 0);
    if j < |s| {
      DigitRunInPrefix(s, t, j);
      var e := DigitRunEnd(s, j);
      assert (s + t)[j..e] == s[j..e];
    } else {
      assert FirstDigitFrom(t, 0) == |t|;
    }
  }

  /** A prefix without digits that does not end in '+', such as "Female " in the adaptive
      scraper's category, leaves numeral and flag unchanged */
  lemma DigitFreePrefix(p: string, s: string)
    requires DigitFree(p)
    requires |p| == 0 || p[|p| - 1] != '+'
    ensures GetWeight(p + s) == GetWeight(s)
  {
    FirstDigitInPrefix(p, s, 0);
    var j := FirstDigitFrom(s, 0);
    if j < |s| {
      DigitRunShift(p, s, j);
      PlusFlagShift(p, s, j);
      ShiftedWeight(p + s, |p|, s, j);
    } else {
      assert FirstDigitFrom(p + s, 0) == |p + s|;
    }
  }

  /** The flag read before index `j` of `s` is the one read before index `|p| + j` of `p + s` */
  lemma PlusFlagShift(p: string, s: string, j: nat)
    requires 0 < j < |s| || (j == 0 < |s| && (|p| == 0 || p[|p| - 1] != '+'))
    ensures (|p| + j > 0 && (p + s)[|p| + j - 1] == '+') == (j > 0 && s[j - 1] == '+')
  {
    if j > 0 {
      assert (p + s)[|p| + j - 1] == s[j - 1];
    } else if |p| > 0 {
      assert (p + s)[|p| - 1] == p[|p| - 1];
    }
  }

  /** `t` reads as `s` when it holds `s` from index `o` on and its first numeral is the one
      at index `o + j` */
  lemma ShiftedWeight(t: string, o: nat, s: string, j: nat)
    requires o + |s| == |t| && t[o..] == s
    requires j < |s| && FirstDigitFrom(s, 0) == j && FirstDigitFrom(t, 0) == o + j
    requires DigitRunEnd(t, o + j) == o + DigitRunEnd(s, j)
    requires (o + j > 0 && t[o + j - 1] == '+') == (j > 0 && s[j - 1] == '+')
    ensures GetWeight(t) == GetWeight(s)
  {
    var e := DigitRunEnd(s, j);
    assert t[o + j..o + e] == s[j..e];
  }

  lemma {:induction false} DigitRunShift(p: string, s: string, j: nat)
    requires j <= |s|
    ensures DigitRunEnd(p + s, |p| + j) == |p| + DigitRunEnd(s, j)
    decreases |s| - j
  {
    if j < |s| && IsDigit(s[j]) {
      DigitRunShift(p, s, j + 1);
    }
  }

  /** A bare numeral reads as itself, without the flag */
  lemma NumeralReading(w: string)
    requires |w| > 0 && AllDigits(w)
    ensures GetWeight(w) == WeightKey(Some(DigitsValue(w)), false)
  {
    assert FirstDigitFrom(w, 0) == 0;
    DigitRunToEnd(w, 0);
    assert w[0..|w|] == w;
  }

  /** A numeral after '+' reads as the numeral, with the flag */
  lemma PlusNumeralReading(w: string)
    requires |w| > 0 && AllDigits(w)
    ensures GetWeight("+" + w) == WeightKey(Some(DigitsValue(w)), true)
  {
    var s := "+" + w;
    assert !IsDigit(s[0]) && IsDigit(s[1]);
    assert FirstDigitFrom(s, 0) == 1;
    DigitRunToEnd(s, 1);
    assert s[1..|s|] == w;
  }

  lemma {:induction false} DigitRunToEnd(s: string, j: nat)
    requires j <= |s| && forall k :: j <= k < |s| ==> IsDigit(s[k])
    ensures DigitRunEnd(s, j) == |s|
    decreases |s| - j
  {
    if j < |s| {
      DigitRunToEnd(s, j + 1);
    }
  }

  /** The readings the comparators rely on */
  lemma Readings()
    ensures GetWeight("+87") == WeightKey(Some(87), true)
    ensures GetWeight("87") == WeightKey(Some(87), false)
    ensures GetWeight("Open") == WeightKey(None, false)
  {
    assert "87"[..1] == "8";
    assert DigitsValue("87") == 87;
    NumeralReading("87");
    PlusNumeralReading("87");
    assert "+" + "87" == "+87";
  }
}

=== FILE: wrappers.dfy ===
/** The optional-value datatype used throughout the model: a nullable column, a missing
    regex match, a failed remote fetch. */
module Wrappers {

  datatype Option<+T> = None | Some(value: T)
}
